=== FILE: README.md ===
# QuadTree model

A Dafny model of the generic region quadtree in
`WindowsFormsApplication1/WindowsFormsApplication1/QuadTree.cs`, with proofs of
what its operations guarantee.

The tree stores (value, rectangle) pairs. The rectangles are axis-aligned quads
with real coordinates. The tree covers a fixed region. Each branch holds leaves
until their number reaches the split threshold. The branch then splits: it
re-routes every leaf it held into the first of its four quarters that fully
contains it, and keeps the leaves no quarter contains. A table maps each value
to its one leaf. The tree answers three queries: an area search, a point
search, and a collision search for a registered value.

The modules, in dependency order:

| file | module | contents |
|---|---|---|
| `options.dfy` | `Options` | `Option` |
| `geometry.dfy` | `Geometry` | `Quad` and its three tests, quartering, first containing quarter |
| `branch.dfy` | `Branches` | the branch tree, insertion with splitting, the validity invariant, routing paths |
| `branch_properties.dfy` | `BranchProperties` | insertion keeps the invariant, leaves sit at their routing endpoint, branch counts, fuel |
| `search.dfy` | `Searches` | area and point search, the collision walk, its exactness |
| `tree.dfy` | `QuadTrees` | the tree façade: insert with the value table, the three queries, branch count, clear |
| `tree_properties.dfy` | `QuadTreeProperties` | the façade's promises, stated over the value table |
| `pool.dfy` | `LeafPool` | the leaf pool that clearing refills and leaf creation drains |
| `scenarios.dfy` | `Scenarios` | concrete runs, including the two findings below |

Modelling choices:

- A branch is an immutable value: `Branch(region, kids, leaves, split)`.
  - `kids` has four slots. A slot is `Nil` when the child has not been created.
  - The four child quads are computed from `region` by `Quarter`. The source computes them once, when the branch is created, with the same formulas.
- A leaf is its value and its quad.
  - The source compares leaf objects by reference.
  - The table holds one leaf per value, so two stored leaves are the same object exactly when they carry the same value.
  - The model therefore compares values.
- The source's parent links and the back-reference from a leaf to its branch are replaced by paths.
  - `Home(root, quad)` is the path the routing of `quad` follows.
  - `BranchProperties.LeafAtHome` proves that every stored leaf sits at the end of that path. This is the branch its back-reference names.
- Insertion can recurse without bound, so it takes a `fuel` argument.
  - Fuel bounds how many levels one insertion may descend.
  - `None` means the fuel ran out.
  - `BranchProperties.InsertFuelMonotone` proves that fuel only cuts a run short, and never changes the tree a completed run builds.
- Result lists are returned fresh. The source clears the caller's list first, so its contents never depend on a previous call.

## Model

| member | source | states |
|---|---|---|
| Geometry.BoundaryExamples | WindowsFormsApplication1/WindowsFormsApplication1/QuadTree.cs:398-420 | quads sharing only an edge do not intersect; a shared corner still counts as containment; a boundary point is not contained |
| Geometry.IntersectsIffCommonInterior | WindowsFormsApplication1/WindowsFormsApplication1/QuadTree.cs:401-404 | for quads with an interior, intersection holds exactly when some point lies strictly inside both |
| Geometry.ContainsIffInteriorInside | WindowsFormsApplication1/WindowsFormsApplication1/QuadTree.cs:409-412 | containment of a quad with an interior holds exactly when every point strictly inside it is strictly inside the container |
| Geometry.IntersectsSymmetric | WindowsFormsApplication1/WindowsFormsApplication1/QuadTree.cs:401-404 | intersection does not depend on which quad asks |
| Geometry.Quarter | WindowsFormsApplication1/WindowsFormsApplication1/QuadTree.cs:233-238 | each quarter has half the region's width and height; for a region with ordered corners each quarter is well formed and inside the region |
| Geometry.QuartersDisjoint | WindowsFormsApplication1/WindowsFormsApplication1/QuadTree.cs:233-238 | two different quarters of a region never intersect |
| Geometry.QuartersCoverInterior | WindowsFormsApplication1/WindowsFormsApplication1/QuadTree.cs:233-238 | a point inside the region and off its midlines is strictly inside exactly one quarter |
| Geometry.FirstContaining | WindowsFormsApplication1/WindowsFormsApplication1/QuadTree.cs:292-301 | the chosen quarter contains the quad and no lower-indexed quarter does; no quarter is chosen exactly when none contains it |
| BranchProperties.CreateBranchFresh | WindowsFormsApplication1/WindowsFormsApplication1/QuadTree.cs:227-240 | a new branch is unsplit, holds no leaves, counts as one branch and satisfies the invariant; its quarters lie inside a well-formed region |
| Branches.NewBranch | WindowsFormsApplication1/WindowsFormsApplication1/QuadTree.cs:227-240 | the branch `CreateBranch` builds over a region: unsplit, no children, no leaves; its quarters are computed from the region by `Geometry.Quarter` |
| Branches.Insert | WindowsFormsApplication1/WindowsFormsApplication1/QuadTree.cs:287-325 | insertion keeps the region and yields a branch; a split branch stays split; reaching the threshold splits; below it the leaf is appended to the unsplit branch and nothing else changes |
| Branches.InsertConserves | WindowsFormsApplication1/WindowsFormsApplication1/QuadTree.cs:287-325 | the tree afterwards holds the old leaves plus the new one, as multisets |
| Branches.Route | WindowsFormsApplication1/WindowsFormsApplication1/QuadTree.cs:290-305 | routing in a split branch keeps the branch split over the same region; a leaf no quarter contains is appended to the branch's own leaves |
| Branches.RouteConserves | WindowsFormsApplication1/WindowsFormsApplication1/QuadTree.cs:290-305 | routing conserves leaves and adds the routed one |
| Branches.Descend | WindowsFormsApplication1/WindowsFormsApplication1/QuadTree.cs:294-299 | handing a leaf to child `i`, created over quarter `i` if missing, keeps the branch split over the same region |
| Branches.DescendConserves | WindowsFormsApplication1/WindowsFormsApplication1/QuadTree.cs:294-299 | the descent adds exactly the handed leaf to the branch's leaves |
| Branches.DescendGrows | WindowsFormsApplication1/WindowsFormsApplication1/QuadTree.cs:294-299 | a successful descent puts back into slot `i` the slot child grown by exactly the handed leaf |
| Branches.SlotChild | WindowsFormsApplication1/WindowsFormsApplication1/QuadTree.cs:296-297 | the child used is the existing one, or a new branch over quarter `i` holding nothing |
| Branches.Reinsert | WindowsFormsApplication1/WindowsFormsApplication1/QuadTree.cs:315-322 | re-routing the drained leaves keeps the branch split over the same region |
| Branches.ReinsertConserves | WindowsFormsApplication1/WindowsFormsApplication1/QuadTree.cs:315-322 | re-routing the drained leaves puts back exactly the drained leaves |
| Branches.RouteGrows | WindowsFormsApplication1/WindowsFormsApplication1/QuadTree.cs:319-320 | each routed drained leaf grows the split branch by exactly that leaf |
| Branches.Home | WindowsFormsApplication1/WindowsFormsApplication1/QuadTree.cs:290-310 | the routing path of a quad ends at a branch from which routing goes no further |
| BranchProperties.InsertValid | WindowsFormsApplication1/WindowsFormsApplication1/QuadTree.cs:287-325 | insertion keeps the invariant: unsplit branches are childless and below the threshold, a split branch keeps only leaves no quarter contains, and child `i` covers quarter `i` and holds only leaves routed to `i` |
| BranchProperties.RouteValid | WindowsFormsApplication1/WindowsFormsApplication1/QuadTree.cs:290-305 | routing in a split branch keeps the invariant |
| BranchProperties.DescendValid | WindowsFormsApplication1/WindowsFormsApplication1/QuadTree.cs:294-299 | descending into quarter `i` keeps the invariant |
| BranchProperties.ReinsertValid | WindowsFormsApplication1/WindowsFormsApplication1/QuadTree.cs:312-322 | re-routing the drained leaves of a split keeps the invariant |
| BranchProperties.DescendTouchesOnlySlot | WindowsFormsApplication1/WindowsFormsApplication1/QuadTree.cs:294-299 | descending changes only slot `i`, which gains the leaf, and leaves the branch's own leaves alone |
| BranchProperties.SplitBranchKeepsStraddlers | WindowsFormsApplication1/WindowsFormsApplication1/QuadTree.cs:290-305 | in a valid tree no quarter of a split branch contains a leaf that branch holds itself |
| BranchProperties.UnsplitBranchBelowThreshold | WindowsFormsApplication1/WindowsFormsApplication1/QuadTree.cs:306-323 | in a valid tree an unsplit branch holds fewer leaves than the threshold, counts as one branch and has no leaves below it |
| BranchProperties.LeafAtHome | WindowsFormsApplication1/WindowsFormsApplication1/QuadTree.cs:302-310 | every stored leaf is held by the branch its quad's routing path ends at |
| BranchProperties.LeavesInsideHolder | WindowsFormsApplication1/WindowsFormsApplication1/QuadTree.cs:294-299 | every branch below the root contains the quads of all leaves in its subtree |
| BranchProperties.InsertPlacesAtHome | WindowsFormsApplication1/WindowsFormsApplication1/QuadTree.cs:287-310 | after insertion the new leaf sits at the end of its routing path |
| BranchProperties.InsertKeepsBranches | WindowsFormsApplication1/WindowsFormsApplication1/QuadTree.cs:287-325 | insertion never lowers the branch count |
| BranchProperties.InsertFuelMonotone | WindowsFormsApplication1/WindowsFormsApplication1/QuadTree.cs:287-325 | an insertion that completes builds the same tree with any larger fuel |
| Branches.CountBranches | WindowsFormsApplication1/WindowsFormsApplication1/QuadTree.cs:217-225 | the recursive count: one for the branch, plus, only when it is split, the counts of its existing children |
| BranchProperties.CountBranchesCountsEvery | WindowsFormsApplication1/WindowsFormsApplication1/QuadTree.cs:212-225 | on a valid tree, counting only through split branches gives the number of all branches, because an unsplit branch has no children |
| Searches.Search | WindowsFormsApplication1/WindowsFormsApplication1/QuadTree.cs:327-347 | the search of a subtree lists exactly the matching leaves of the whole subtree, own leaves first, then the children in slot order |
| Searches.SelectMembership | WindowsFormsApplication1/WindowsFormsApplication1/QuadTree.cs:329-332 | a value is listed exactly when some leaf carrying it matches the probe |
| Searches.SelectAppend | WindowsFormsApplication1/WindowsFormsApplication1/QuadTree.cs:327-336 | filtering a concatenation concatenates the filtered parts |
| Searches.CollideExact | WindowsFormsApplication1/WindowsFormsApplication1/QuadTree.cs:181-204 | on a valid tree the walk from the leaf's branch up to the root collects exactly the other leaves that intersect it, with multiplicity |
| Searches.Collide | WindowsFormsApplication1/WindowsFormsApplication1/QuadTree.cs:181-204 | the walk itself: at the leaf's branch, its own leaves other than the value's that intersect the quad, then an area search of its children when it is split; at each ancestor, its own intersecting leaves; the ancestors' part comes after the part below them |
| QuadTrees.Insert | WindowsFormsApplication1/WindowsFormsApplication1/QuadTree.cs:81-90 | a registered value keeps its table entry and its leaf; a new one is registered with the given quad; the tree gains one copy of the value's leaf |
| QuadTrees.SearchArea | WindowsFormsApplication1/WindowsFormsApplication1/QuadTree.cs:120-128 | the result lists the stored leaves whose quads intersect the query; the flag says the list is non-empty |
| QuadTrees.SearchPoint | WindowsFormsApplication1/WindowsFormsApplication1/QuadTree.cs:155-163 | the result lists the stored leaves whose quads strictly contain the point; the flag says the list is non-empty |
| QuadTrees.FindCollisionsAsWritten | WindowsFormsApplication1/WindowsFormsApplication1/QuadTree.cs:171-207 | the flag is always false; an unregistered value gets an empty list |
| QuadTrees.FindCollisions | WindowsFormsApplication1/WindowsFormsApplication1/QuadTree.cs:165-207 | the same list as written, with the flag true exactly when the list is non-empty |
| QuadTrees.Clear | WindowsFormsApplication1/WindowsFormsApplication1/QuadTree.cs:58-63 | clearing yields the tree a constructor would build over the same region and threshold |
| QuadTrees.NewTree | WindowsFormsApplication1/WindowsFormsApplication1/QuadTree.cs:25-29 | the constructor: the threshold, a fresh root branch over the region, and an empty value table |
| QuadTrees.CountBranches | WindowsFormsApplication1/WindowsFormsApplication1/QuadTree.cs:212-225 | the façade count is the root's recursive count, at least 1 |
| QuadTreeProperties.CountBranchesExact | WindowsFormsApplication1/WindowsFormsApplication1/QuadTree.cs:212-225 | on a valid tree the count equals the number of branches the tree holds, split or not |
| QuadTreeProperties.NewTreeEmpty | WindowsFormsApplication1/WindowsFormsApplication1/QuadTree.cs:25-29 | a new tree is valid, counts one branch, and every query on it is empty and reports false |
| QuadTreeProperties.ClearResets | WindowsFormsApplication1/WindowsFormsApplication1/QuadTree.cs:58-63 | after clearing the table is empty, the tree is valid, counts one branch, and every query is empty |
| QuadTreeProperties.InsertKeepsValid | WindowsFormsApplication1/WindowsFormsApplication1/QuadTree.cs:81-90 | insertion keeps the tree valid and the table in step with the stored leaves |
| QuadTreeProperties.SearchAreaExact | WindowsFormsApplication1/WindowsFormsApplication1/QuadTree.cs:120-128 | a value is reported exactly when it is registered with a quad the query intersects; the flag is true exactly when such a value exists |
| QuadTreeProperties.SearchPointExact | WindowsFormsApplication1/WindowsFormsApplication1/QuadTree.cs:155-163 | a value is reported exactly when it is registered with a quad strictly containing the point; the flag is true exactly when such a value exists |
| QuadTreeProperties.CollisionsExact | WindowsFormsApplication1/WindowsFormsApplication1/QuadTree.cs:171-205 | for a registered value the list holds exactly the other registered values whose quads intersect its quad, never the value itself |
| QuadTreeProperties.InsertedValueFound | WindowsFormsApplication1/WindowsFormsApplication1/QuadTree.cs:81-90 | right after insertion, an area search meeting the value's stored quad reports the value |
| QuadTreeProperties.ReinsertKeepsQuad | WindowsFormsApplication1/WindowsFormsApplication1/QuadTree.cs:83-89 | re-inserting a registered value ignores the new quad, keeps the table, and stores another copy of the old leaf |
| QuadTreeProperties.InsertKeepsBranchCount | WindowsFormsApplication1/WindowsFormsApplication1/QuadTree.cs:212-225 | insertion never lowers the count of branches |
| LeafPool.PushedCountsCopies | WindowsFormsApplication1/WindowsFormsApplication1/QuadTree.cs:267-282 | clearing pushes one shell per stored copy of each leaf |
| LeafPool.Pushed | WindowsFormsApplication1/WindowsFormsApplication1/QuadTree.cs:261-285 | the pushes `Branch.Clear` makes: each child's, children in slot order, then one per entry of the branch's own leaf list |
| LeafPool.ClearPoolAsWritten | WindowsFormsApplication1/WindowsFormsApplication1/QuadTree.cs:58-63 | the pool after `Clear` as written: the old pool with every stored leaf copy pushed on top |
| LeafPool.ClearPool | WindowsFormsApplication1/WindowsFormsApplication1/QuadTree.cs:277-282 | the corrected pool after `Clear`: the old pool with each shell pushed once, at its first occurrence |
| LeafPool.Acquire | WindowsFormsApplication1/WindowsFormsApplication1/QuadTree.cs:242-248 | leaf creation takes the shell on top of the pool, or a new shell when the pool is empty |
| LeafPool.ReinsertedShellPushedTwice | WindowsFormsApplication1/WindowsFormsApplication1/QuadTree.cs:81-90 | after re-inserting a registered value, clearing pushes that value's one shell at least twice |
| LeafPool.Dedup | WindowsFormsApplication1/WindowsFormsApplication1/QuadTree.cs:277-282 | the corrected push list has no repeats and holds every stored shell |
| LeafPool.ClearPoolDistinct | WindowsFormsApplication1/WindowsFormsApplication1/QuadTree.cs:277-282 | pushing each shell once onto a pool without repeats keeps the pool without repeats |
| LeafPool.DistinctPoolGivesDistinctShells | WindowsFormsApplication1/WindowsFormsApplication1/QuadTree.cs:244 | two successive leaf creations from a pool without repeats get different shells |
| Scenarios.SingleValueQueries | WindowsFormsApplication1/WindowsFormsApplication1/QuadTree.cs:120-163 | one value at (50,50,100,100) in a (0,0,1000,1000) tree: found at point (75,75), not at its corner (100,100); found by area (0,0,60,60), not by (200,200,300,300) |
| Scenarios.SplitScenario | WindowsFormsApplication1/WindowsFormsApplication1/QuadTree.cs:306-323 | with threshold 4, the fourth leaf splits the root; the straddling leaf stays at the root and the branch count goes from 1 to 4, then to 5 with a leaf in the last quarter |
| Scenarios.CollisionFlagCounterexample | WindowsFormsApplication1/WindowsFormsApplication1/QuadTree.cs:206 | two overlapping values: the collision list for the first holds the second, yet the as-written flag is false; the corrected flag is true |
| Scenarios.ClearAsWrittenSharesShell | WindowsFormsApplication1/WindowsFormsApplication1/QuadTree.cs:277-282 | a value inserted twice and then cleared: the next two leaf creations get the same shell as written, and different shells when clearing pushes each shell once |

## Findings

| source | as written | input that shows it | evidently intended | confidence | as-written member | corrected member |
|---|---|---|---|---|---|---|
| WindowsFormsApplication1/WindowsFormsApplication1/QuadTree.cs:206 | `FindCollisions` returns `false` on every path, whatever it collected | tree over (0,0,1000,1000), threshold 50, value 0 at (50,50,100,100) and value 1 at (60,60,70,70): the list for 0 is [1] and the flag is false | return true when a collision was found, as the method's own documentation says (line 168) | high, not executed | QuadTrees.FindCollisionsAsWritten, Scenarios.CollisionFlagCounterexample | QuadTrees.FindCollisions, QuadTreeProperties.CollisionsExact |
| WindowsFormsApplication1/WindowsFormsApplication1/QuadTree.cs:277-282 | clearing pushes a leaf object onto the pool once per stored copy, and re-inserting a registered value stores its one leaf object twice (lines 81-90) | insert value 0 twice, clear, then insert two other values: both are handed the same leaf object, so the table maps both to one leaf and the first value's quad is lost | each leaf object returns to the pool once, so later leaves never alias | medium, not executed | LeafPool.ClearPoolAsWritten, Scenarios.ClearAsWrittenSharesShell | LeafPool.ClearPool, LeafPool.ClearPoolDistinct |

The collision query also does more than a path-limited search would suggest.
It looks only at the leaf's own branch, that branch's subtree, and its
ancestors. On a valid tree, though, `Searches.CollideExact` shows that this finds
every intersecting leaf: sibling subtrees lie in quarters that cannot intersect
the quarter holding the leaf.

## Left out

- The branch pool and the pool of temporary lists (lines 13, 252, 315-322) are not modelled. The branch count and the query results do not depend on them. A fresh branch is built wherever the source would take one from the pool.
- `ClearPools` (lines 69-74) is not modelled: it only drops the pooled shells.
- The leaf pool is modelled only as far as the finding above needs. Shells are named by the value they held. The pool is shared by every tree with the same value type; that sharing and its thread-safety hazard are not modelled. `QuadTrees.Insert` always builds a fresh leaf. The `QuadTreeProperties` theorems therefore describe the source only until the shell aliasing of the second finding happens. After that, one leaf object carries two table entries, and the first value's quad is overwritten.
- Coordinates are reals. The source uses 32-bit floats, so midpoints and edge tests may round differently from the model.
- The constructor, insert and search overloads taking `x, y, width, height` or a quad by value only build or copy a quad and forward to the `ref` forms modelled here, at lines 25, 81 and 120 (overloads at lines 35-52, 96-112, 129-146). `Quad`'s constructor and `Set` (lines 375-396) become the datatype constructor.
- The demo form and its random rectangles (`Form1.cs`) are outside the core.
- QuadTrees.Insert: a null value (possible when `T` is a reference type) makes the value table's lookup throw in the source, at line 84 in `Insert` and at line 179 in `FindCollisions` (after the caller's list has been cleared at lines 173-174). The model has no null and no exception: every value is an ordinary key, so `QuadTrees.Insert`, `QuadTrees.FindCollisions` and `QuadTrees.FindCollisionsAsWritten` succeed where the source would throw.
- Branches.Insert: termination is not claimed, so each level of descent costs one unit of `fuel`, and `None` stands for running out. The descent can be unbounded only through leaves whose quads have neither positive width nor positive height (a point, or corners out of order): such a quad is contained by every quarter whose closed box meets it, so `splitCount` or more of them (one, for a threshold below 2) can fill a child that splits again at every level. A quad with positive width or height stops descending once the quarters become narrower or lower than it.
- Invalid arguments (a threshold below 1, a quad whose corners are out of order) are not rejected, because the source does not check them. The invariant and the theorems that rely on it assume a threshold of at least 1.
- QuadTrees.CountBranches: its own contract states only that the count is at least 1. `QuadTreeProperties.CountBranchesExact` proves that on a valid tree it equals the number of branches the tree holds. The count is an unbounded natural, with no 32-bit overflow.

=== FILE: branch.dfy ===
/**
  A quadtree branch and its insertion algorithm. A branch covers a region, has
  four child slots (one per quarter, filled on first use) and a list of leaves
  held at its own level. An unsplit branch holds leaves until their count
  reaches the split threshold; it then splits and routes every held leaf again.
  A split branch hands a leaf to the first quarter that contains it, and keeps
  it only when no quarter does.
*/
module Branches {
  import opened Options
  import opened Geometry

  /** One inserted value together with its quad. */
  datatype Leaf<T> = Leaf(value: T, quad: Quad)

  /** A child slot is `Nil` until a leaf is routed into its quarter. */
  datatype Node<T> =
    | Nil
    | Branch(region: Quad, kids: Kids<T>, leaves: seq<Leaf<T>>, split: bool)

  /** The four child slots, in quarter order. */
  datatype Kids<T> = Kids(k0: Node<T>, k1: Node<T>, k2: Node<T>, k3: Node<T>) {

    function Get(i: Index): Node<T> {
      if i == 0 then k0 else if i == 1 then k1 else if i == 2 then k2 else k3
    }

    function Set(i: Index, n: Node<T>): (r: Kids<T>)
      ensures r.Get(i) == n
      ensures forall j: Index :: j != i ==> r.Get(j) == Get(j)
    {
      if i == 0 then this.(k0 := n)
      else if i == 1 then this.(k1 := n)
      else if i == 2 then this.(k2 := n)
      else this.(k3 := n)
    }
  }

  function NoKids<T>(): Kids<T> {
    Kids(Nil, Nil, Nil, Nil)
  }

  /** A fresh, unsplit branch over `region`, with no children and no leaves. */
  function NewBranch<T>(region: Quad): Node<T> {
    Branch(region, NoKids(), [], false)
  }

  /** Every leaf stored in the subtree, own leaves first, then the children in quarter order. */
  function AllLeaves<T>(n: Node<T>): seq<Leaf<T>>
    decreases n, 1
  {
    match n
    case Nil => []
    case Branch(_, kids, leaves, _) => leaves + KidsLeaves(kids)
  }

  function KidsLeaves<T>(kids: Kids<T>): seq<Leaf<T>>
    decreases kids, 0
  {
    AllLeaves(kids.k0) + AllLeaves(kids.k1) + AllLeaves(kids.k2) + AllLeaves(kids.k3)
  }

  /** The number of branches reachable from `n`, descending only through split branches. */
  function CountBranches<T>(n: Node<T>): nat
    decreases n, 1
  {
    match n
    case Nil => 0
    case Branch(_, kids, _, split) => 1 + (if split then CountKids(kids) else 0)
  }

  function CountKids<T>(kids: Kids<T>): nat
    decreases kids, 0
  {
    CountBranches(kids.k0) + CountBranches(kids.k1) + CountBranches(kids.k2) + CountBranches(kids.k3)
  }

  /**
    The structural invariant of a branch under threshold `splitCount`: an unsplit
    branch has no children and fewer than `splitCount` leaves; a split branch
    keeps only leaves no quarter contains; the child in slot `i` covers quarter
    `i` and holds only leaves whose first containing quarter is `i`.
  */
  ghost predicate Valid<T>(n: Node<T>, splitCount: int)
    decreases n, 2
  {
    match n
    case Nil => true
    case Branch(region, kids, leaves, split) =>
      && (if split then forall l :: l in leaves ==> FirstContaining(region, l.quad).None?
          else |leaves| < splitCount && kids == NoKids())
      && KidsValid(region, kids, splitCount)
  }

  ghost predicate KidsValid<T>(region: Quad, kids: Kids<T>, splitCount: int)
    decreases kids, 1
  {
    && KidValid(region, 0, kids.k0, splitCount)
    && KidValid(region, 1, kids.k1, splitCount)
    && KidValid(region, 2, kids.k2, splitCount)
    && KidValid(region, 3, kids.k3, splitCount)
  }

  ghost predicate KidValid<T>(region: Quad, i: Index, kid: Node<T>, splitCount: int)
    decreases kid, 3
  {
    kid.Nil? ||
    (&& kid.region == Quarter(region, i)
     && (forall l :: l in AllLeaves(kid) ==> FirstContaining(region, l.quad) == Some(i))
     && Valid(kid, splitCount))
  }

  /**
    Insert `leaf` into branch `n` under threshold `splitCount`. `fuel` bounds
    how many levels the insertion may descend; `None` means it would go deeper.
  */
  function Insert<T>(n: Node<T>, leaf: Leaf<T>, splitCount: int, fuel: nat): (r: Option<Node<T>>)
    requires n.Branch?
    decreases fuel, 3, 0
    ensures r.Some? ==> r.value.Branch? && r.value.region == n.region
    ensures r.Some? && n.split ==> r.value.split
    ensures r.Some? && !n.split && |n.leaves| + 1 >= splitCount ==> r.value.split
    ensures r.Some? && !r.value.split ==> |r.value.leaves| < splitCount && r.value.leaves == n.leaves + [leaf]
    ensures !n.split && |n.leaves| + 1 < splitCount ==> r == Some(n.(leaves := n.leaves + [leaf]))
  {
    if n.split then Route(n, leaf, splitCount, fuel)
    else
      var held := n.leaves + [leaf];
      if |held| >= splitCount then Reinsert(n.(leaves := [], split := true), held, splitCount, fuel)
      else Some(n.(leaves := held))
  }

  /** Insertion into a split branch: first containing quarter in index order, else kept here. */
  function Route<T>(n: Node<T>, leaf: Leaf<T>, splitCount: int, fuel: nat): (r: Option<Node<T>>)
    requires n.Branch? && n.split
    decreases fuel, 1, 0
    ensures r.Some? ==> r.value.Branch? && r.value.split && r.value.region == n.region
    ensures FirstContaining(n.region, leaf.quad).None? ==>
              r == Some(n.(leaves := n.leaves + [leaf]))
  {
    match FirstContaining(n.region, leaf.quad)
    case None => Some(n.(leaves := n.leaves + [leaf]))
    case Some(i) => Descend(n, i, leaf, splitCount, fuel)
  }

  /**
    Insertion into the child in slot `i` of a split branch, creating that child
    over quarter `i` if the slot is empty. Nothing outside slot `i` changes.
  */
  function Descend<T>(n: Node<T>, i: Index, leaf: Leaf<T>, splitCount: int, fuel: nat): (r: Option<Node<T>>)
    requires n.Branch? && n.split
    decreases fuel, 0, 0
    ensures r.Some? ==> r.value.Branch? && r.value.split && r.value.region == n.region
  {
    if fuel == 0 then None
    else
      var child := SlotChild(n, i);
      match Insert(child, leaf, splitCount, fuel - 1)
      case None => None
      case Some(child') => Some(n.(kids := n.kids.Set(i, child')))
  }

  /** The child in slot `i`, or a fresh branch over quarter `i` when the slot is empty. */
  function SlotChild<T>(n: Node<T>, i: Index): (child: Node<T>)
    requires n.Branch?
    ensures child.Branch? && AllLeaves(child) == AllLeaves(n.kids.Get(i))
    ensures n.kids.Get(i).Nil? ==> child.region == Quarter(n.region, i)
  {
    var kid := n.kids.Get(i);
    if kid.Nil? then NewBranch(Quarter(n.region, i)) else kid
  }

  /** The re-routing a split performs: every drained leaf, in its old order, through `Route`. */
  function Reinsert<T>(n: Node<T>, held: seq<Leaf<T>>, splitCount: int, fuel: nat): (r: Option<Node<T>>)
    requires n.Branch? && n.split
    decreases fuel, 2, |held|
    ensures r.Some? ==> r.value.Branch? && r.value.split && r.value.region == n.region
  {
    if held == [] then Some(n)
    else
      match Route(n, held[0], splitCount, fuel)
      case None => None
      case Some(m) => Reinsert(m, held[1..], splitCount, fuel)
  }

  /**
    The child slot a routing of `q` descends into from branch `n`, when that
    child exists: `n` is split and its first quarter containing `q` has a branch.
  */
  function Step<T>(n: Node<T>, q: Quad): Option<Index>
    requires n.Branch?
  {
    if !n.split then None
    else
      match FirstContaining(n.region, q)
      case None => None
      case Some(i) => if n.kids.Get(i).Nil? then None else Some(i)
  }

  /** The node reached from `n` by following the child slots in `path`. */
  function At<T>(n: Node<T>, path: seq<Index>): Node<T>
    decreases |path|
  {
    if path == [] || n.Nil? then n else At(n.kids.Get(path[0]), path[1..])
  }

  /**
    The path from `n` to the branch that holds a leaf with quad `q`: the one the
    source records in the leaf's back-reference. Routing stops at an unsplit
    branch, at a split branch no quarter of which contains `q`, or where the
    quarter's child has not been created.
  */
  function Home<T>(n: Node<T>, q: Quad): (path: seq<Index>)
    requires n.Branch?
    decreases n
    ensures At(n, path).Branch? && Step(At(n, path), q).None?
  {
    match Step(n, q)
    case None => []
    case Some(i) =>
      var rest := Home(n.kids.Get(i), q);
      AtCons(n, i, rest);
      [i] + rest
  }

  /** Following `i` and then `path` is following `path` from child `i`. */
  lemma AtCons<T>(n: Node<T>, i: Index, path: seq<Index>)
    requires n.Branch?
    ensures At(n, [i] + path) == At(n.kids.Get(i), path)
  {
    assert ([i] + path)[1..] == path;
  }

  /** Insertion keeps every leaf the branch held and adds exactly `leaf`. */
  lemma {:induction false} InsertConserves<T>(n: Node<T>, leaf: Leaf<T>, splitCount: int, fuel: nat)
    requires n.Branch?
    ensures Insert(n, leaf, splitCount, fuel).Some? ==>
              multiset(AllLeaves(Insert(n, leaf, splitCount, fuel).value)) == multiset(AllLeaves(n)) + multiset{leaf}
    decreases fuel, 3, 0
  {
    if n.split {
      RouteConserves(n, leaf, splitCount, fuel);
    } else if |n.leaves + [leaf]| >= splitCount {
      ReinsertConserves(n.(leaves := [], split := true), n.leaves + [leaf], splitCount, fuel);
    }
  }

  lemma {:induction false} RouteConserves<T>(n: Node<T>, leaf: Leaf<T>, splitCount: int, fuel: nat)
    requires n.Branch? && n.split
    ensures Route(n, leaf, splitCount, fuel).Some? ==>
              multiset(AllLeaves(Route(n, leaf, splitCount, fuel).value)) == multiset(AllLeaves(n)) + multiset{leaf}
    decreases fuel, 1, 0
  {
    match FirstContaining(n.region, leaf.quad)
    case None =>
    case Some(i) => DescendConserves(n, i, leaf, splitCount, fuel);
  }

  lemma {:induction false} DescendConserves<T>(n: Node<T>, i: Index, leaf: Leaf<T>, splitCount: int, fuel: nat)
    requires n.Branch? && n.split
    ensures Descend(n, i, leaf, splitCount, fuel).Some? ==>
              multiset(AllLeaves(Descend(n, i, leaf, splitCount, fuel).value)) == multiset(AllLeaves(n)) + multiset{leaf}
    decreases fuel, 0, 1
  {
    if fuel > 0 && Insert(SlotChild(n, i), leaf, splitCount, fuel - 1).Some? {
      var grown := DescendGrows(n, i, leaf, splitCount, fuel);
      BranchLeavesSet(n, i, grown, multiset{leaf});
    }
  }

  /** A descent that succeeds puts the slot child, grown by `leaf`, back into slot `i`. */
  lemma {:induction false} DescendGrows<T>(n: Node<T>, i: Index, leaf: Leaf<T>, splitCount: int, fuel: nat) returns (grown: Node<T>)
    requires n.Branch? && n.split && fuel > 0 && Insert(SlotChild(n, i), leaf, splitCount, fuel - 1).Some?
    ensures Descend(n, i, leaf, splitCount, fuel) == Some(n.(kids := n.kids.Set(i, grown)))
    ensures multiset(AllLeaves(grown)) == multiset(AllLeaves(SlotChild(n, i))) + multiset{leaf}
    decreases fuel, 0, 0
  {
    InsertConserves(SlotChild(n, i), leaf, splitCount, fuel - 1);
    grown := Insert(SlotChild(n, i), leaf, splitCount, fuel - 1).value;
  }

  lemma {:induction false} ReinsertConserves<T>(n: Node<T>, held: seq<Leaf<T>>, splitCount: int, fuel: nat)
    requires n.Branch? && n.split
    ensures Reinsert(n, held, splitCount, fuel).Some? ==>
              multiset(AllLeaves(Reinsert(n, held, splitCount, fuel).value)) == multiset(AllLeaves(n)) + multiset(held)
    decreases fuel, 2, |held|
  {
    if held != [] && Route(n, held[0], splitCount, fuel).Some? {
      var m := RouteGrows(n, held[0], splitCount, fuel);
      ReinsertConserves(m, held[1..], splitCount, fuel);
      assert held == [held[0]] + held[1..];
    }
  }

  /** A routing that succeeds yields a split branch over the same region, grown by `leaf`. */
  lemma {:induction false} RouteGrows<T>(n: Node<T>, leaf: Leaf<T>, splitCount: int, fuel: nat) returns (m: Node<T>)
    requires n.Branch? && n.split && Route(n, leaf, splitCount, fuel).Some?
    ensures Route(n, leaf, splitCount, fuel) == Some(m) && m.Branch? && m.split
    ensures multiset(AllLeaves(m)) == multiset(AllLeaves(n)) + multiset{leaf}
    decreases fuel, 1, 1
  {
    RouteConserves(n, leaf, splitCount, fuel);
    m := Route(n, leaf, splitCount, fuel).value;
  }

  /** Growing one child's leaves by `extra` grows the branch's leaves by `extra`. */
  lemma BranchLeavesSet<T>(n: Node<T>, i: Index, child: Node<T>, extra: multiset<Leaf<T>>)
    requires n.Branch? && multiset(AllLeaves(child)) == multiset(AllLeaves(SlotChild(n, i))) + extra
    ensures multiset(AllLeaves(n.(kids := n.kids.Set(i, child)))) == multiset(AllLeaves(n)) + extra
  {
    KidsLeavesSet(n.kids, i, child, extra);
    assert AllLeaves(n.(kids := n.kids.Set(i, child))) == n.leaves + KidsLeaves(n.kids.Set(i, child));
  }

  /** Growing one child's leaves by `extra` grows the children's combined leaves by `extra`. */
  lemma KidsLeavesSet<T>(kids: Kids<T>, i: Index, n: Node<T>, extra: multiset<Leaf<T>>)
    requires multiset(AllLeaves(n)) == multiset(AllLeaves(kids.Get(i))) + extra
    ensures multiset(KidsLeaves(kids.Set(i, n))) == multiset(KidsLeaves(kids)) + extra
  {
    var a, b, c, d := AllLeaves(kids.k0), AllLeaves(kids.k1), AllLeaves(kids.k2), AllLeaves(kids.k3);
    var m := AllLeaves(n);
    var s := kids.Set(i, n);
    var before, after := KidsLeaves(kids), KidsLeaves(s);
    assert before == a + b + c + d;
    if i == 0 {
      assert after == m + b + c + d;
      Grow4(a, b, c, d, m, 0, extra);
    } else if i == 1 {
      assert after == a + m + c + d;
      Grow4(a, b, c, d, m, 1, extra);
    } else if i == 2 {
      assert after == a + b + m + d;
      Grow4(a, b, c, d, m, 2, extra);
    } else {
      assert after == a + b + c + m;
      Grow4(a, b, c, d, m, 3, extra);
    }
  }

  /** Multiset bookkeeping for replacing part `i` of a four-part sequence by a larger `m`. */
  lemma Grow4<X>(a: seq<X>, b: seq<X>, c: seq<X>, d: seq<X>, m: seq<X>, i: Index, extra: multiset<X>)
    requires multiset(m) == multiset([a, b, c, d][i]) + extra
    ensures i == 0 ==> multiset(m + b + c + d) == multiset(a + b + c + d) + extra
    ensures i == 1 ==> multiset(a + m + c + d) == multiset(a + b + c + d) + extra
    ensures i == 2 ==> multiset(a + b + m + d) == multiset(a + b + c + d) + extra
    ensures i == 3 ==> multiset(a + b + c + m) == multiset(a + b + c + d) + extra
  {
  }
}

=== FILE: branch_properties.dfy ===
/**
  What insertion keeps true of a branch: the structural invariant, the position
  of every leaf, the branch count, and independence from the fuel bound.
*/
module BranchProperties {
  import opened Options
  import opened Geometry
  import opened Branches

  /** A created branch is an empty unsplit shell, and its quarters lie inside its region. */
  lemma CreateBranchFresh<T>(region: Quad, splitCount: int)
    requires splitCount >= 1
    ensures Valid(NewBranch<T>(region), splitCount)
    ensures AllLeaves(NewBranch<T>(region)) == [] && CountBranches(NewBranch<T>(region)) == 1
    ensures region.WellFormed() ==> forall i: Index :: region.Contains(Quarter(region, i))
  {
  }

  lemma KidsValidGet<T>(region: Quad, kids: Kids<T>, i: Index, splitCount: int)
    requires KidsValid(region, kids, splitCount)
    ensures KidValid(region, i, kids.Get(i), splitCount)
  {
  }

  lemma KidsValidSet<T>(region: Quad, kids: Kids<T>, i: Index, n: Node<T>, splitCount: int)
    requires KidsValid(region, kids, splitCount) && KidValid(region, i, n, splitCount)
    ensures KidsValid(region, kids.Set(i, n), splitCount)
  {
  }

  /** Insertion preserves the structural invariant. */
  lemma {:induction false} InsertValid<T>(n: Node<T>, leaf: Leaf<T>, splitCount: int, fuel: nat)
    requires n.Branch? && Valid(n, splitCount) && splitCount >= 1
    ensures Insert(n, leaf, splitCount, fuel).Some? ==> Valid(Insert(n, leaf, splitCount, fuel).value, splitCount)
    decreases fuel, 3, 0
  {
    if n.split {
      RouteValid(n, leaf, splitCount, fuel);
    } else {
      var held := n.leaves + [leaf];
      if |held| >= splitCount {
        var m := n.(leaves := [], split := true);
        assert Valid(m, splitCount);
        ReinsertValid(m, held, splitCount, fuel);
      }
    }
  }

  lemma {:induction false} RouteValid<T>(n: Node<T>, leaf: Leaf<T>, splitCount: int, fuel: nat)
    requires n.Branch? && n.split && Valid(n, splitCount) && splitCount >= 1
    ensures Route(n, leaf, splitCount, fuel).Some? ==> Valid(Route(n, leaf, splitCount, fuel).value, splitCount)
    decreases fuel, 1, 0
  {
    match FirstContaining(n.region, leaf.quad)
    case None =>
      var r := n.(leaves := n.leaves + [leaf]);
      assert KidsValid(r.region, r.kids, splitCount);
      assert forall l :: l in r.leaves ==> FirstContaining(r.region, l.quad).None?;
    case Some(i) =>
      DescendValid(n, i, leaf, splitCount, fuel);
  }

  lemma {:induction false} DescendValid<T>(n: Node<T>, i: Index, leaf: Leaf<T>, splitCount: int, fuel: nat)
    requires n.Branch? && n.split && Valid(n, splitCount) && splitCount >= 1
    requires FirstContaining(n.region, leaf.quad) == Some(i)
    ensures Descend(n, i, leaf, splitCount, fuel).Some? ==> Valid(Descend(n, i, leaf, splitCount, fuel).value, splitCount)
    decreases fuel, 0, 0
  {
    if fuel > 0 && Insert(SlotChild(n, i), leaf, splitCount, fuel - 1).Some? {
      var grown := InsertedKidValid(n, i, leaf, splitCount, fuel - 1);
      PlaceKid(n, i, grown, splitCount);
    }
  }

  /** What `Descend` yields, in terms of the insertion into the slot child. */
  lemma DescendUnfold<T>(n: Node<T>, i: Index, leaf: Leaf<T>, splitCount: int, fuel: nat)
    requires n.Branch? && n.split
    ensures fuel == 0 ==> Descend(n, i, leaf, splitCount, fuel).None?
    ensures fuel > 0 && Insert(SlotChild(n, i), leaf, splitCount, fuel - 1).None? ==> Descend(n, i, leaf, splitCount, fuel).None?
    ensures fuel > 0 && Insert(SlotChild(n, i), leaf, splitCount, fuel - 1).Some? ==>
              Descend(n, i, leaf, splitCount, fuel) == Some(n.(kids := n.kids.Set(i, Insert(SlotChild(n, i), leaf, splitCount, fuel - 1).value)))
  {
  }

  /** The slot child, after taking a leaf of its own quarter, still satisfies the child conditions. */
  lemma {:induction false} InsertedKidValid<T>(n: Node<T>, i: Index, leaf: Leaf<T>, splitCount: int, fuel: nat) returns (grown: Node<T>)
    requires n.Branch? && Valid(n, splitCount) && splitCount >= 1
    requires FirstContaining(n.region, leaf.quad) == Some(i)
    requires Insert(SlotChild(n, i), leaf, splitCount, fuel).Some?
    ensures Insert(SlotChild(n, i), leaf, splitCount, fuel) == Some(grown) && KidValid(n.region, i, grown, splitCount)
    decreases fuel, 4, 0
  {
    var child := SlotChild(n, i);
    SlotChildValid(n, i, splitCount);
    InsertValid(child, leaf, splitCount, fuel);
    InsertConserves(child, leaf, splitCount, fuel);
    grown := Insert(child, leaf, splitCount, fuel).value;
    forall l | l in AllLeaves(grown)
      ensures FirstContaining(n.region, l.quad) == Some(i)
    {
      assert l in multiset(AllLeaves(grown));
      if l != leaf {
        assert l in multiset(AllLeaves(n.kids.Get(i)));
      }
    }
  }

  /** The child a valid branch descends into is itself valid and covers its quarter. */
  lemma SlotChildValid<T>(n: Node<T>, i: Index, splitCount: int)
    requires n.Branch? && Valid(n, splitCount) && splitCount >= 1
    ensures KidValid(n.region, i, n.kids.Get(i), splitCount)
    ensures Valid(SlotChild(n, i), splitCount) && SlotChild(n, i).region == Quarter(n.region, i)
  {
    KidsValidGet(n.region, n.kids, i, splitCount);
  }

  /** Putting a child that meets the child conditions into its slot of a valid split branch keeps the branch valid. */
  lemma PlaceKid<T>(n: Node<T>, i: Index, child: Node<T>, splitCount: int)
    requires n.Branch? && n.split && Valid(n, splitCount) && KidValid(n.region, i, child, splitCount)
    ensures Valid(n.(kids := n.kids.Set(i, child)), splitCount)
  {
    KidsValidSet(n.region, n.kids, i, child, splitCount);
  }

  lemma {:induction false} ReinsertValid<T>(n: Node<T>, held: seq<Leaf<T>>, splitCount: int, fuel: nat)
    requires n.Branch? && n.split && Valid(n, splitCount) && splitCount >= 1
    ensures Reinsert(n, held, splitCount, fuel).Some? ==> Valid(Reinsert(n, held, splitCount, fuel).value, splitCount)
    decreases fuel, 2, |held|
  {
    if held != [] {
      RouteValid(n, held[0], splitCount, fuel);
      match Route(n, held[0], splitCount, fuel)
      case None =>
      case Some(m) => ReinsertValid(m, held[1..], splitCount, fuel);
    }
  }

  /** Descending changes only slot `i`, which gains the leaf; the branch's own leaves stay as they were. */
  lemma DescendTouchesOnlySlot<T>(n: Node<T>, i: Index, leaf: Leaf<T>, splitCount: int, fuel: nat)
    requires n.Branch? && n.split && Descend(n, i, leaf, splitCount, fuel).Some?
    ensures var r := Descend(n, i, leaf, splitCount, fuel).value;
            && r.leaves == n.leaves
            && (forall j: Index :: j != i ==> r.kids.Get(j) == n.kids.Get(j))
            && r.kids.Get(i).Branch?
            && multiset(AllLeaves(r.kids.Get(i))) == multiset(AllLeaves(n.kids.Get(i))) + multiset{leaf}
  {
    InsertConserves(SlotChild(n, i), leaf, splitCount, fuel - 1);
    var child' := Insert(SlotChild(n, i), leaf, splitCount, fuel - 1).value;
    assert Descend(n, i, leaf, splitCount, fuel).value == n.(kids := n.kids.Set(i, child'));
  }

  /** A split branch keeps at its own level only leaves that none of its quarters contains. */
  lemma SplitBranchKeepsStraddlers<T>(n: Node<T>, splitCount: int)
    requires n.Branch? && n.split && Valid(n, splitCount)
    ensures forall l, i: Index :: l in n.leaves ==> !Quarter(n.region, i).Contains(l.quad)
  {
  }

  /** An unsplit valid branch is below the threshold and has no children. */
  lemma UnsplitBranchBelowThreshold<T>(n: Node<T>, splitCount: int)
    requires n.Branch? && !n.split && Valid(n, splitCount)
    ensures |n.leaves| < splitCount && CountBranches(n) == 1 && AllLeaves(n) == n.leaves
  {
  }

  /** The number of branches in the subtree, counted through every child slot whether split or not. */
  function CountNodes<T>(n: Node<T>): nat
    decreases n, 1
  {
    match n
    case Nil => 0
    case Branch(_, kids, _, _) => 1 + KidsNodes(kids)
  }

  function KidsNodes<T>(kids: Kids<T>): nat
    decreases kids, 0
  {
    CountNodes(kids.k0) + CountNodes(kids.k1) + CountNodes(kids.k2) + CountNodes(kids.k3)
  }

  /**
    In a valid tree, counting only through split branches reaches every branch:
    an unsplit branch has no children to miss.
  */
  lemma {:induction false} CountBranchesCountsEvery<T>(n: Node<T>, splitCount: int)
    requires Valid(n, splitCount)
    ensures CountBranches(n) == CountNodes(n)
    decreases n, 1
  {
    match n
    case Nil =>
    case Branch(region, kids, _, split) =>
      if split {
        KidsCountEvery(region, kids, splitCount);
      } else {
        assert kids == NoKids();
      }
  }

  lemma {:induction false} KidsCountEvery<T>(region: Quad, kids: Kids<T>, splitCount: int)
    requires KidsValid(region, kids, splitCount)
    ensures CountKids(kids) == KidsNodes(kids)
    decreases kids, 0
  {
    CountBranchesCountsEvery(kids.k0, splitCount);
    CountBranchesCountsEvery(kids.k1, splitCount);
    CountBranchesCountsEvery(kids.k2, splitCount);
    CountBranchesCountsEvery(kids.k3, splitCount);
  }

  /** Which child slot holds a leaf of the children's combined leaves. */
  lemma KidsHolding<T>(kids: Kids<T>, l: Leaf<T>) returns (j: Index)
    requires l in KidsLeaves(kids)
    ensures kids.Get(j).Branch? && l in AllLeaves(kids.Get(j))
  {
    var a, b, c, d := AllLeaves(kids.k0), AllLeaves(kids.k1), AllLeaves(kids.k2), AllLeaves(kids.k3);
    assert KidsLeaves(kids) == a + b + c + d;
    if l in a {
      j := 0;
    } else if l in b {
      j := 1;
    } else if l in c {
      j := 2;
    } else {
      assert l in d;
      j := 3;
    }
  }

  /**
    Every leaf of a valid tree is held at the branch its quad routes to, so the
    back-reference the source keeps in each leaf is the routing endpoint `Home`.
  */
  lemma {:induction false} LeafAtHome<T>(n: Node<T>, splitCount: int, l: Leaf<T>)
    requires n.Branch? && Valid(n, splitCount) && l in AllLeaves(n)
    ensures l in At(n, Home(n, l.quad)).leaves
    decreases n
  {
    if l in n.leaves {
      assert Step(n, l.quad).None?;
    } else {
      assert l in KidsLeaves(n.kids);
      var j := KidsHolding(n.kids, l);
      var kid := n.kids.Get(j);
      KidsValidGet(n.region, n.kids, j, splitCount);
      assert n.split;
      assert Step(n, l.quad) == Some(j);
      LeafAtHome(kid, splitCount, l);
      assert Home(n, l.quad) == [j] + Home(kid, l.quad);
      AtCons(n, j, Home(kid, l.quad));
    }
  }

  /** Below the root, every branch's region contains the quad of every leaf in its subtree. */
  lemma {:induction false} LeavesInsideHolder<T>(n: Node<T>, splitCount: int, path: seq<Index>, l: Leaf<T>)
    requires n.Branch? && Valid(n, splitCount) && |path| > 0
    requires l in AllLeaves(At(n, path))
    ensures At(n, path).region.Contains(l.quad)
    decreases |path|
  {
    var i := path[0];
    var kid := n.kids.Get(i);
    AtCons(n, i, path[1..]);
    assert path == [i] + path[1..];
    KidsValidGet(n.region, n.kids, i, splitCount);
    if path[1..] == [] {
      assert At(n, path) == kid;
    } else {
      assert kid.Branch?;
      LeavesInsideHolder(kid, splitCount, path[1..], l);
    }
  }

  /** An inserted leaf ends up held at its home branch. */
  lemma InsertPlacesAtHome<T>(n: Node<T>, leaf: Leaf<T>, splitCount: int, fuel: nat)
    requires n.Branch? && Valid(n, splitCount) && splitCount >= 1
    requires Insert(n, leaf, splitCount, fuel).Some?
    ensures var r := Insert(n, leaf, splitCount, fuel).value;
            leaf in At(r, Home(r, leaf.quad)).leaves
  {
    var r := Insert(n, leaf, splitCount, fuel).value;
    InsertValid(n, leaf, splitCount, fuel);
    InsertConserves(n, leaf, splitCount, fuel);
    assert leaf in multiset(AllLeaves(r));
    LeafAtHome(r, splitCount, leaf);
  }

  lemma CountKidsSet<T>(kids: Kids<T>, i: Index, n: Node<T>)
    ensures CountKids(kids.Set(i, n)) == CountKids(kids) - CountBranches(kids.Get(i)) + CountBranches(n)
  {
    if i == 0 {
      assert kids.Set(i, n) == kids.(k0 := n);
    } else if i == 1 {
      assert kids.Set(i, n) == kids.(k1 := n);
    } else if i == 2 {
      assert kids.Set(i, n) == kids.(k2 := n);
    } else {
      assert kids.Set(i, n) == kids.(k3 := n);
    }
  }

  /** Insertion never removes a branch. */
  lemma {:induction false} InsertKeepsBranches<T>(n: Node<T>, leaf: Leaf<T>, splitCount: int, fuel: nat)
    requires n.Branch?
    ensures Insert(n, leaf, splitCount, fuel).Some? ==>
              CountBranches(Insert(n, leaf, splitCount, fuel).value) >= CountBranches(n)
    decreases fuel, 3, 0
  {
    if n.split {
      RouteKeepsBranches(n, leaf, splitCount, fuel);
    } else if |n.leaves + [leaf]| >= splitCount {
      ReinsertKeepsBranches(n.(leaves := [], split := true), n.leaves + [leaf], splitCount, fuel);
    }
  }

  lemma {:induction false} RouteKeepsBranches<T>(n: Node<T>, leaf: Leaf<T>, splitCount: int, fuel: nat)
    requires n.Branch? && n.split
    ensures Route(n, leaf, splitCount, fuel).Some? ==>
              CountBranches(Route(n, leaf, splitCount, fuel).value) >= CountBranches(n)
    decreases fuel, 1, 0
  {
    match FirstContaining(n.region, leaf.quad)
    case None =>
    case Some(i) => DescendKeepsBranches(n, i, leaf, splitCount, fuel);
  }

  lemma {:induction false} DescendKeepsBranches<T>(n: Node<T>, i: Index, leaf: Leaf<T>, splitCount: int, fuel: nat)
    requires n.Branch? && n.split
    ensures Descend(n, i, leaf, splitCount, fuel).Some? ==>
              CountBranches(Descend(n, i, leaf, splitCount, fuel).value) >= CountBranches(n)
    decreases fuel, 0, 0
  {
    DescendUnfold(n, i, leaf, splitCount, fuel);
    if fuel > 0 && Insert(SlotChild(n, i), leaf, splitCount, fuel - 1).Some? {
      InsertKeepsBranches(SlotChild(n, i), leaf, splitCount, fuel - 1);
      CountKidsSet(n.kids, i, Insert(SlotChild(n, i), leaf, splitCount, fuel - 1).value);
    }
  }

  lemma {:induction false} ReinsertKeepsBranches<T>(n: Node<T>, held: seq<Leaf<T>>, splitCount: int, fuel: nat)
    requires n.Branch? && n.split
    ensures Reinsert(n, held, splitCount, fuel).Some? ==>
              CountBranches(Reinsert(n, held, splitCount, fuel).value) >= CountBranches(n)
    decreases fuel, 2, |held|
  {
    if held != [] {
      RouteKeepsBranches(n, held[0], splitCount, fuel);
      match Route(n, held[0], splitCount, fuel)
      case None =>
      case Some(m) => ReinsertKeepsBranches(m, held[1..], splitCount, fuel);
    }
  }

  /** Fuel only cuts an insertion short: any run that completes gives the same tree with more fuel. */
  lemma {:induction false} InsertFuelMonotone<T>(n: Node<T>, leaf: Leaf<T>, splitCount: int, fuel: nat, more: nat)
    requires n.Branch? && fuel <= more
    ensures Insert(n, leaf, splitCount, fuel).Some? ==>
              Insert(n, leaf, splitCount, more) == Insert(n, leaf, splitCount, fuel)
    decreases fuel, 3, 0
  {
    if n.split {
      RouteFuelMonotone(n, leaf, splitCount, fuel, more);
    } else if |n.leaves + [leaf]| >= splitCount {
      ReinsertFuelMonotone(n.(leaves := [], split := true), n.leaves + [leaf], splitCount, fuel, more);
    }
  }

  lemma {:induction false} RouteFuelMonotone<T>(n: Node<T>, leaf: Leaf<T>, splitCount: int, fuel: nat, more: nat)
    requires n.Branch? && n.split && fuel <= more
    ensures Route(n, leaf, splitCount, fuel).Some? ==>
              Route(n, leaf, splitCount, more) == Route(n, leaf, splitCount, fuel)
    decreases fuel, 1, 0
  {
    match FirstContaining(n.region, leaf.quad)
    case None =>
    case Some(i) => DescendFuelMonotone(n, i, leaf, splitCount, fuel, more);
  }

  lemma {:induction false} DescendFuelMonotone<T>(n: Node<T>, i: Index, leaf: Leaf<T>, splitCount: int, fuel: nat, more: nat)
    requires n.Branch? && n.split && fuel <= more
    ensures Descend(n, i, leaf, splitCount, fuel).Some? ==>
              Descend(n, i, leaf, splitCount, more) == Descend(n, i, leaf, splitCount, fuel)
    decreases fuel, 0, 0
  {
    DescendUnfold(n, i, leaf, splitCount, fuel);
    DescendUnfold(n, i, leaf, splitCount, more);
    if fuel > 0 {
      InsertFuelMonotone(SlotChild(n, i), leaf, splitCount, fuel - 1, more - 1);
    }
  }

  lemma {:induction false} ReinsertFuelMonotone<T>(n: Node<T>, held: seq<Leaf<T>>, splitCount: int, fuel: nat, more: nat)
    requires n.Branch? && n.split && fuel <= more
    ensures Reinsert(n, held, splitCount, fuel).Some? ==>
              Reinsert(n, held, splitCount, more) == Reinsert(n, held, splitCount, fuel)
    decreases fuel, 2, |held|
  {
    if held != [] {
      RouteFuelMonotone(n, held[0], splitCount, fuel, more);
      match Route(n, held[0], splitCount, fuel)
      case None =>
      case Some(m) => ReinsertFuelMonotone(m, held[1..], splitCount, fuel, more);
    }
  }
}

=== FILE: geometry.dfy ===
/**
  Axis-aligned rectangles ("quads") and the three tests the quadtree routes and
  searches with. Coordinates are exact reals: the single-precision midpoints of
  the source become exact halves here.
*/
module Geometry {
  import opened Options

  /** A rectangle given by its minimum and maximum corners. Nothing forces min <= max. */
  datatype Quad = Quad(minX: real, minY: real, maxX: real, maxY: real) {

    /** Overlap with positive area: an open-interval test, so shared edges do not count. */
    predicate Intersects(other: Quad) {
      minX < other.maxX && minY < other.maxY && maxX > other.minX && maxY > other.minY
    }

    /** `other` lies inside this quad: a closed-interval test, so shared edges count. */
    predicate Contains(other: Quad) {
      other.minX >= minX && other.minY >= minY && other.maxX <= maxX && other.maxY <= maxY
    }

    /** The point lies strictly inside: boundary points are excluded. */
    predicate ContainsPoint(x: real, y: real) {
      x > minX && y > minY && x < maxX && y < maxY
    }

    /** The corners are in order (the callers' obligation; never checked by the index). */
    predicate WellFormed() {
      minX <= maxX && minY <= maxY
    }

    /** The quad has an interior. */
    predicate Proper() {
      minX < maxX && minY < maxY
    }
  }

  /** The index of one of the four quarters of a branch. */
  type Index = i: int | 0 <= i < 4

  /**
    Quarter `i` of `region`, cut at the midpoint and named by its lower corner:
    0 is (minX, minY), 1 is (midX, minY), 2 is (midX, midY) and 3 is (minX, midY).
  */
  function Quarter(region: Quad, i: Index): (q: Quad)
    ensures 2.0 * (q.maxX - q.minX) == region.maxX - region.minX
    ensures 2.0 * (q.maxY - q.minY) == region.maxY - region.minY
    ensures region.WellFormed() ==> q.WellFormed() && region.Contains(q)
  {
    var midX := region.minX + (region.maxX - region.minX) * 0.5;
    var midY := region.minY + (region.maxY - region.minY) * 0.5;
    if i == 0 then Quad(region.minX, region.minY, midX, midY)
    else if i == 1 then Quad(midX, region.minY, region.maxX, midY)
    else if i == 2 then Quad(midX, midY, region.maxX, region.maxY)
    else Quad(region.minX, midY, midX, region.maxY)
  }

  /** The lowest index at or after `start` whose quarter of `region` contains `q`. */
  function FirstContainingFrom(region: Quad, q: Quad, start: nat): (r: Option<Index>)
    requires start <= 4
    decreases 4 - start
    ensures r.Some? ==> start <= r.value && Quarter(region, r.value).Contains(q)
    ensures r.Some? ==> forall j: Index :: start <= j < r.value ==> !Quarter(region, j).Contains(q)
    ensures r.None? <==> forall j: Index :: start <= j ==> !Quarter(region, j).Contains(q)
  {
    if start == 4 then None
    else if Quarter(region, start).Contains(q) then Some(start)
    else FirstContainingFrom(region, q, start + 1)
  }

  /** The quarter a split branch over `region` hands `q` to, trying the quarters in index order. */
  function FirstContaining(region: Quad, q: Quad): (r: Option<Index>)
    ensures r.Some? ==> Quarter(region, r.value).Contains(q)
    ensures r.Some? ==> forall j: Index :: j < r.value ==> !Quarter(region, j).Contains(q)
    ensures r.None? <==> forall j: Index :: !Quarter(region, j).Contains(q)
  {
    FirstContainingFrom(region, q, 0)
  }

  /** Intersection does not depend on which quad asks. */
  lemma IntersectsSymmetric(a: Quad, b: Quad)
    ensures a.Intersects(b) <==> b.Intersects(a)
  {
  }

  /** Quads with an interior intersect exactly when some point lies strictly inside both. */
  lemma IntersectsIffCommonInterior(a: Quad, b: Quad)
    requires a.Proper() && b.Proper()
    ensures a.Intersects(b) <==> exists x, y :: a.ContainsPoint(x, y) && b.ContainsPoint(x, y)
  {
    if a.Intersects(b) {
      var x := ((if a.minX < b.minX then b.minX else a.minX) + (if a.maxX < b.maxX then a.maxX else b.maxX)) / 2.0;
      var y := ((if a.minY < b.minY then b.minY else a.minY) + (if a.maxY < b.maxY then a.maxY else b.maxY)) / 2.0;
      assert a.ContainsPoint(x, y) && b.ContainsPoint(x, y);
    }
  }

  /** For a quad with an interior, closed containment is containment of every interior point. */
  lemma ContainsIffInteriorInside(a: Quad, b: Quad)
    requires b.Proper()
    ensures a.Contains(b) <==> forall x, y :: b.ContainsPoint(x, y) ==> a.ContainsPoint(x, y)
  {
    if !a.Contains(b) {
      var cx := (b.minX + b.maxX) / 2.0;
      var cy := (b.minY + b.maxY) / 2.0;
      if b.minX < a.minX {
        var x := (b.minX + (if a.minX < b.maxX then a.minX else b.maxX)) / 2.0;
        assert b.ContainsPoint(x, cy) && !a.ContainsPoint(x, cy);
      } else if b.minY < a.minY {
        var y := (b.minY + (if a.minY < b.maxY then a.minY else b.maxY)) / 2.0;
        assert b.ContainsPoint(cx, y) && !a.ContainsPoint(cx, y);
      } else if b.maxX > a.maxX {
        var x := ((if a.maxX > b.minX then a.maxX else b.minX) + b.maxX) / 2.0;
        assert b.ContainsPoint(x, cy) && !a.ContainsPoint(x, cy);
      } else {
        var y := ((if a.maxY > b.minY then a.maxY else b.minY) + b.maxY) / 2.0;
        assert b.ContainsPoint(cx, y) && !a.ContainsPoint(cx, y);
      }
    }
  }

  /** Containment is transitive, so a leaf placed in a child also lies in every ancestor's quarter. */
  lemma ContainsTransitive(a: Quad, b: Quad, c: Quad)
    requires a.Contains(b) && b.Contains(c)
    ensures a.Contains(c)
  {
  }

  /** Two quads that lie in non-intersecting containers do not intersect. */
  lemma SeparatedByContainers(outerA: Quad, a: Quad, outerB: Quad, b: Quad)
    requires outerA.Contains(a) && outerB.Contains(b) && !outerA.Intersects(outerB)
    ensures !a.Intersects(b)
  {
  }

  /** The four quarters of any region pairwise share at most an edge. */
  lemma QuartersDisjoint(region: Quad, i: Index, j: Index)
    requires i != j
    ensures !Quarter(region, i).Intersects(Quarter(region, j))
  {
  }

  /**
    Every point strictly inside a region and off its two midlines lies strictly
    inside exactly one quarter.
  */
  lemma QuartersCoverInterior(region: Quad, x: real, y: real)
    requires region.ContainsPoint(x, y)
    requires 2.0 * x != region.minX + region.maxX && 2.0 * y != region.minY + region.maxY
    ensures exists i: Index :: Quarter(region, i).ContainsPoint(x, y)
    ensures forall i: Index, j: Index :: Quarter(region, i).ContainsPoint(x, y) && Quarter(region, j).ContainsPoint(x, y) ==> i == j
  {
    var midX := region.minX + (region.maxX - region.minX) * 0.5;
    var midY := region.minY + (region.maxY - region.minY) * 0.5;
    var i: Index := if x < midX then (if y < midY then 0 else 3) else (if y < midY then 1 else 2);
    assert Quarter(region, i).ContainsPoint(x, y);
    forall i: Index, j: Index | Quarter(region, i).ContainsPoint(x, y) && Quarter(region, j).ContainsPoint(x, y)
      ensures i == j
    {
      if i != j {
        QuartersDisjoint(region, i, j);
      }
    }
  }

  /** The boundary cases of the three tests: an edge-sharing pair, a corner-sharing pair, and a point on an edge and at the centre. */
  lemma BoundaryExamples()
    ensures !Quad(0.0, 0.0, 10.0, 10.0).Intersects(Quad(10.0, 0.0, 20.0, 10.0))
    ensures Quad(0.0, 0.0, 10.0, 10.0).Contains(Quad(0.0, 0.0, 5.0, 5.0))
    ensures !Quad(0.0, 0.0, 10.0, 10.0).ContainsPoint(10.0, 5.0)
    ensures Quad(0.0, 0.0, 10.0, 10.0).ContainsPoint(5.0, 5.0)
  {
  }
}

=== FILE: options.dfy ===
/** The Some/None wrapper that stands in for a C# null reference or a search that found nothing. */
module Options {

  datatype Option<+T> = None | Some(value: T)
}

=== FILE: pool.dfy ===
/**
  The leaf pool that `Clear` refills and leaf creation drains. A leaf shell is
  named here by the value it held when the tree was cleared: since the
  value-to-leaf table holds one leaf per value, two stored copies carrying the
  same value are the same shell.
*/
module LeafPool {
  import opened Options
  import opened Geometry
  import opened Branches
  import opened QuadTrees

  /** The values of a list of leaves, in order. */
  function Values<T>(ls: seq<Leaf<T>>): (r: seq<T>)
    ensures |r| == |ls| && forall i :: 0 <= i < |ls| ==> r[i] == ls[i].value
  {
    if ls == [] then [] else [ls[0].value] + Values(ls[1..])
  }

  /**
    The shells clearing `n` pushes onto the leaf pool, in push order: each
    child's shells, children in slot order, then this branch's own leaves,
    one push per stored copy.
  */
  function Pushed<T>(n: Node<T>): seq<T>
    decreases n, 1
  {
    match n
    case Nil => []
    case Branch(_, kids, leaves, _) => KidsPushed(kids) + Values(leaves)
  }

  function KidsPushed<T>(kids: Kids<T>): seq<T>
    decreases kids, 0
  {
    Pushed(kids.k0) + Pushed(kids.k1) + Pushed(kids.k2) + Pushed(kids.k3)
  }

  /** The pool after `Clear` as written: every stored copy of every leaf pushed on top. */
  function ClearPoolAsWritten<T>(pool: seq<T>, t: Tree<T>): seq<T> {
    pool + Pushed(t.root)
  }

  /** The pool after a `Clear` that pushes each shell once, on its first occurrence. */
  function ClearPool<T(==)>(pool: seq<T>, t: Tree<T>): seq<T> {
    pool + Dedup(Pushed(t.root))
  }

  /**
    Leaf creation: reuse the shell on top of the pool when there is one
    (`None` stands for allocating a new shell); returns the shell and the pool left.
  */
  function Acquire<T>(pool: seq<T>): (r: (Option<T>, seq<T>))
    ensures pool == [] ==> r == (None, [])
    ensures pool != [] ==> r.0 == Some(pool[|pool| - 1]) && r.1 + [pool[|pool| - 1]] == pool
  {
    if pool == [] then (None, []) else (Some(pool[|pool| - 1]), pool[..|pool| - 1])
  }

  predicate Distinct<T(==)>(s: seq<T>) {
    forall i, j :: 0 <= i < j < |s| ==> s[i] != s[j]
  }

  /** `s` without repeats: each element kept at its first occurrence. */
  function Dedup<T(==)>(s: seq<T>): (r: seq<T>)
    ensures Distinct(r)
    ensures forall i :: 0 <= i < |r| ==> r[i] in s
    ensures forall i :: 0 <= i < |s| ==> s[i] in r
  {
    if s == [] then []
    else
      var front := Dedup(s[..|s| - 1]);
      var last := s[|s| - 1];
      if last in front then front else front + [last]
  }

  /** Every stored copy of a leaf is pushed once: the pushed shells are the stored leaves' values. */
  lemma {:induction false} PushedCountsCopies<T>(n: Node<T>)
    ensures multiset(Pushed(n)) == multiset(Values(AllLeaves(n)))
    decreases n, 1
  {
    match n
    case Nil =>
    case Branch(_, kids, leaves, _) =>
      KidsPushedCountsCopies(kids);
      ValuesAppend(leaves, KidsLeaves(kids));
  }

  lemma {:induction false} KidsPushedCountsCopies<T>(kids: Kids<T>)
    ensures multiset(KidsPushed(kids)) == multiset(Values(KidsLeaves(kids)))
    decreases kids, 0
  {
    PushedCountsCopies(kids.k0);
    PushedCountsCopies(kids.k1);
    PushedCountsCopies(kids.k2);
    PushedCountsCopies(kids.k3);
    var a, b, c, d := AllLeaves(kids.k0), AllLeaves(kids.k1), AllLeaves(kids.k2), AllLeaves(kids.k3);
    ValuesAppend(a, b);
    ValuesAppend(a + b, c);
    ValuesAppend(a + b + c, d);
  }

  lemma ValuesAppend<T>(a: seq<Leaf<T>>, b: seq<Leaf<T>>)
    ensures Values(a + b) == Values(a) + Values(b)
  {
  }

  /** Two successive leaf creations from a pool without repeats get different shells. */
  lemma DistinctPoolGivesDistinctShells<T>(pool: seq<T>)
    requires Distinct(pool) && |pool| >= 2
    ensures Acquire(pool).0.Some? && Acquire(Acquire(pool).1).0.Some?
    ensures Acquire(pool).0.value != Acquire(Acquire(pool).1).0.value
  {
  }

  /** Pushing each shell once onto a pool that holds none of them keeps the pool free of repeats. */
  lemma ClearPoolDistinct<T>(pool: seq<T>, t: Tree<T>)
    requires Distinct(pool) && forall v :: v in pool ==> v !in Pushed(t.root)
    ensures Distinct(ClearPool(pool, t))
    ensures forall i :: 0 <= i < |Pushed(t.root)| ==> Pushed(t.root)[i] in ClearPool(pool, t)
  {
    var s, d := ClearPool(pool, t), Dedup(Pushed(t.root));
    forall i, j | 0 <= i < j < |s|
      ensures s[i] != s[j]
    {
      if j >= |pool| && i < |pool| {
        assert s[j] == d[j - |pool|];
        assert s[j] in d;
      } else if i >= |pool| {
        assert s[i] == d[i - |pool|] && s[j] == d[j - |pool|];
      }
    }
  }

  /**
    Re-inserting a registered value into a valid tree leaves two stored copies
    of its one shell, so clearing as written pushes that shell twice.
  */
  lemma ReinsertedShellPushedTwice<T>(t: Tree<T>, value: T, quad: Quad, fuel: nat, r: Tree<T>)
    requires TreeValid(t) && value in t.lookup && QuadTrees.Insert(t, value, quad, fuel) == Some(r)
    ensures multiset(Pushed(r.root))[value] >= 2
  {
    var leaf := Leaf(value, t.lookup[value]);
    assert leaf in AllLeaves(t.root);
    assert multiset(AllLeaves(r.root))[leaf] >= 2;
    PushedCountsCopies(r.root);
    CopiesOfValue(AllLeaves(r.root), leaf);
  }

  /** A value occurs in `Values(ls)` at least as often as any one leaf carrying it occurs in `ls`. */
  lemma {:induction false} CopiesOfValue<T>(ls: seq<Leaf<T>>, l: Leaf<T>)
    ensures multiset(Values(ls))[l.value] >= multiset(ls)[l]
    decreases |ls|
  {
    if ls != [] {
      CopiesOfValue(ls[1..], l);
      assert ls == [ls[0]] + ls[1..];
      assert Values(ls) == [ls[0].value] + Values(ls[1..]);
    }
  }
}

=== FILE: scenarios.dfy ===
/** Concrete runs of the tree on small inputs. */
module Scenarios {
  import opened Options
  import opened Geometry
  import opened Branches
  import opened Searches
  import opened QuadTrees
  import opened LeafPool

  const World := Quad(0.0, 0.0, 1000.0, 1000.0)
  const Small := Quad(50.0, 50.0, 100.0, 100.0)
  const Inner := Quad(60.0, 60.0, 70.0, 70.0)

  /**
    One value in a tree over (0,0,1000,1000) with threshold 50: a point inside
    its quad finds it, its corner does not, and area queries find it exactly
    when they overlap it.
  */
  lemma SingleValueQueries()
    ensures QuadTrees.Insert(NewTree<int>(50, World), 0, Small, 1).Some?
    ensures var t := QuadTrees.Insert(NewTree<int>(50, World), 0, Small, 1).value;
            && SearchPoint(t, 75.0, 75.0) == Found(true, [0])
            && SearchPoint(t, 100.0, 100.0) == Found(false, [])
            && SearchArea(t, Quad(0.0, 0.0, 60.0, 60.0)) == Found(true, [0])
            && SearchArea(t, Quad(200.0, 200.0, 300.0, 300.0)) == Found(false, [])
  {
    var t0 := NewTree<int>(50, World);
    var leaf := Leaf(0, Small);
    assert t0.root.leaves + [leaf] == [leaf];
    var t := QuadTrees.Insert(t0, 0, Small, 1).value;
    assert t.root == Branch(World, NoKids(), [leaf], false);
    assert AllLeaves(t.root) == [leaf];
  }

  /** The tree after inserting 0 with `Small` and then 1 with `Inner`. */
  function TwoValues(): Option<Tree<int>> {
    match QuadTrees.Insert(NewTree<int>(50, World), 0, Small, 1)
    case None => None
    case Some(t1) => QuadTrees.Insert(t1, 1, Inner, 1)
  }

  /** Below the threshold both leaves stay on the root, in insertion order. */
  lemma TwoValuesShape()
    ensures TwoValues().Some?
    ensures TwoValues().value.root == Branch(World, NoKids(), [Leaf(0, Small), Leaf(1, Inner)], false)
    ensures TwoValues().value.lookup == map[0 := Small, 1 := Inner]
  {
    var t0 := NewTree<int>(50, World);
    var a, b := Leaf(0, Small), Leaf(1, Inner);
    assert t0.root.leaves + [a] == [a];
    var t1 := QuadTrees.Insert(t0, 0, Small, 1).value;
    assert t1.root == Branch(World, NoKids(), [a], false);
  }

  /** Of the two leaves, only the second is another value overlapping `Small`. */
  lemma OtherOverlaps()
    ensures Select([Leaf(0, Small), Leaf(1, Inner)], AreaExcept(Small, 0)) == [1]
  {
    var p := AreaExcept(Small, 0);
    var ls := [Leaf(0, Small), Leaf(1, Inner)];
    assert !Matches(p, ls[0]) && Matches(p, ls[1]);
    assert ls[1..] == [Leaf(1, Inner)];
    assert Select([Leaf(1, Inner)], p) == [1] + Select([], p);
  }

  /**
    Two overlapping values under an unsplit root. The collision query for the
    first collects the second, yet the as-written flag reports no collision;
    the corrected flag reports one.
  */
  lemma CollisionFlagCounterexample()
    ensures TwoValues().Some?
    ensures FindCollisionsAsWritten(TwoValues().value, 0) == Found(false, [1])
    ensures FindCollisions(TwoValues().value, 0) == Found(true, [1])
  {
    TwoValuesShape();
    OtherOverlaps();
  }

  const Field := Quad(0.0, 0.0, 100.0, 100.0)
  const Straddler := Leaf(10, Quad(40.0, 40.0, 60.0, 60.0))
  const InQ0 := Leaf(0, Quad(10.0, 10.0, 20.0, 20.0))
  const InQ1 := Leaf(1, Quad(60.0, 10.0, 70.0, 20.0))
  const InQ2 := Leaf(2, Quad(60.0, 60.0, 70.0, 70.0))
  const InQ3 := Leaf(3, Quad(10.0, 60.0, 20.0, 70.0))

  /** Where each sample quad is routed from the field (0,0,100,100). */
  lemma SampleRouting()
    ensures FirstContaining(Field, Straddler.quad) == None
    ensures FirstContaining(Field, InQ0.quad) == Some(0)
    ensures FirstContaining(Field, InQ1.quad) == Some(1)
    ensures FirstContaining(Field, InQ2.quad) == Some(2)
    ensures FirstContaining(Field, InQ3.quad) == Some(3)
  {
  }

  /** A single leaf inserted into a fresh quarter branch is simply held there. */
  lemma IntoFreshQuarter(i: Index, l: Leaf<int>)
    ensures Branches.Insert(NewBranch(Quarter(Field, i)), l, 4, 0) == Some(Holding(i, l))
  {
    assert NewBranch<int>(Quarter(Field, i)).leaves + [l] == [l];
  }

  /** The unsplit quarter branch `i` of the field holding just `l`. */
  function Holding(i: Index, l: Leaf<int>): Node<int> {
    Branch(Quarter(Field, i), NoKids(), [l], false)
  }

  /** A leaf routed to an empty slot `i` of a split branch over the field lands in a fresh quarter branch. */
  lemma DescendIntoEmptySlot(n: Node<int>, i: Index, l: Leaf<int>)
    requires n.Branch? && n.split && n.region == Field && n.kids.Get(i).Nil?
    requires FirstContaining(Field, l.quad) == Some(i)
    ensures Route(n, l, 4, 1) == Some(n.(kids := n.kids.Set(i, Holding(i, l))))
  {
    IntoFreshQuarter(i, l);
  }

  /** The root before its split, the root just after it, and the root as each drained leaf is re-routed. */
  const Packed := Branch(Field, NoKids(), [Straddler, InQ0, InQ1], false)
  const Drained: Node<int> := Branch(Field, NoKids(), [], true)
  const Kept := Drained.(leaves := [Straddler])
  const With0 := Kept.(kids := Kids(Holding(0, InQ0), Nil, Nil, Nil))
  const With01 := Kept.(kids := Kids(Holding(0, InQ0), Holding(1, InQ1), Nil, Nil))
  const With012 := Kept.(kids := Kids(Holding(0, InQ0), Holding(1, InQ1), Holding(2, InQ2), Nil))
  const WithAll := Kept.(kids := Kids(Holding(0, InQ0), Holding(1, InQ1), Holding(2, InQ2), Holding(3, InQ3)))

  /** Re-routing a non-empty list is routing its head and then re-routing its tail. */
  lemma ReinsertCons<T>(n: Node<T>, head: Leaf<T>, rest: seq<Leaf<T>>, splitCount: int, fuel: nat, m: Node<T>)
    requires n.Branch? && n.split && Route(n, head, splitCount, fuel) == Some(m)
    ensures m.Branch? && m.split
    ensures Reinsert(n, [head] + rest, splitCount, fuel) == Reinsert(m, rest, splitCount, fuel)
  {
    assert ([head] + rest)[0] == head && ([head] + rest)[1..] == rest;
  }

  /** Re-routing four leaves is routing them one after another. */
  lemma ReinsertFour<T>(n0: Node<T>, a: Leaf<T>, b: Leaf<T>, c: Leaf<T>, d: Leaf<T>,
                        n1: Node<T>, n2: Node<T>, n3: Node<T>, n4: Node<T>, splitCount: int, fuel: nat)
    requires n0.Branch? && n0.split
    ensures && Route(n0, a, splitCount, fuel) == Some(n1)
            && Route(n1, b, splitCount, fuel) == Some(n2)
            && Route(n2, c, splitCount, fuel) == Some(n3)
            && Route(n3, d, splitCount, fuel) == Some(n4)
            ==> Reinsert(n0, [a, b, c, d], splitCount, fuel) == Some(n4)
  {
    if && Route(n0, a, splitCount, fuel) == Some(n1)
       && Route(n1, b, splitCount, fuel) == Some(n2)
       && Route(n2, c, splitCount, fuel) == Some(n3)
       && Route(n3, d, splitCount, fuel) == Some(n4)
    {
      ReinsertCons(n3, d, [], splitCount, fuel, n4);
      ReinsertCons(n2, c, [d], splitCount, fuel, n3);
      ReinsertCons(n1, b, [c, d], splitCount, fuel, n2);
      ReinsertCons(n0, a, [b, c, d], splitCount, fuel, n1);
      assert [d] == [d] + [];
    }
  }

  /** The fourth leaf fills the root: it drains and splits. */
  lemma FourthLeafSplits()
    ensures Branches.Insert(Packed, InQ2, 4, 1) == Reinsert(Drained, [Straddler, InQ0, InQ1, InQ2], 4, 1)
  {
    assert Packed.leaves + [InQ2] == [Straddler, InQ0, InQ1, InQ2];
  }

  /** No quarter of the field contains the straddler, so the split root keeps it. */
  lemma StraddlerStays()
    ensures Route(Drained, Straddler, 4, 1) == Some(Kept)
  {
    SampleRouting();
    assert Drained.leaves + [Straddler] == [Straddler];
  }

  lemma FirstQuarterLeafDescends()
    ensures Route(Kept, InQ0, 4, 1) == Some(With0)
  {
    SampleRouting();
    DescendIntoEmptySlot(Kept, 0, InQ0);
  }

  lemma SecondQuarterLeafDescends()
    ensures Route(With0, InQ1, 4, 1) == Some(With01)
  {
    SampleRouting();
    DescendIntoEmptySlot(With0, 1, InQ1);
  }

  lemma ThirdQuarterLeafDescends()
    ensures Route(With01, InQ2, 4, 1) == Some(With012)
  {
    SampleRouting();
    DescendIntoEmptySlot(With01, 2, InQ2);
  }

  /** A fifth leaf, in the last quarter, goes to a new child; the split root does not re-split. */
  lemma FifthLeafDescends()
    ensures Branches.Insert(With012, InQ3, 4, 1) == Some(WithAll)
  {
    SampleRouting();
    DescendIntoEmptySlot(With012, 3, InQ3);
  }

  /** The branch counts before the split, after it, and after the fifth leaf. */
  lemma SplitCounts()
    ensures Branches.CountBranches(Packed) == 1
    ensures Branches.CountBranches(With012) == 4
    ensures Branches.CountBranches(WithAll) == 5
  {
  }

  /**
    With threshold 4 over the field: a straddling leaf and three leaves that
    each fit a different quarter. The fourth insertion splits the root; the
    straddler stays at the root and each other leaf gets a branch of its own,
    so the branch count grows from 1 to 4, and a fifth leaf in the last quarter
    makes it 5 while the straddler still stays at the root.
  */
  lemma SplitScenario()
    ensures Branches.CountBranches(Packed) == 1
    ensures Branches.Insert(Packed, InQ2, 4, 1) == Some(With012)
    ensures With012.split && With012.leaves == [Straddler] && Branches.CountBranches(With012) == 4
    ensures Branches.Insert(With012, InQ3, 4, 1) == Some(WithAll)
    ensures WithAll.leaves == [Straddler] && Branches.CountBranches(WithAll) == 5
  {
    SplitCounts();
    FourthLeafSplits();
    DrainedReroute();
    FifthLeafDescends();
  }

  /** Re-routing the four drained leaves through the freshly split root. */
  lemma DrainedReroute()
    ensures Reinsert(Drained, [Straddler, InQ0, InQ1, InQ2], 4, 1) == Some(With012)
  {
    StraddlerStays();
    FirstQuarterLeafDescends();
    SecondQuarterLeafDescends();
    ThirdQuarterLeafDescends();
    ReinsertFour(Drained, Straddler, InQ0, InQ1, InQ2, Kept, With0, With01, With012, 4, 1);
  }

  /** The tree after inserting 0 with `Small` twice: the second insertion reuses the first leaf. */
  function SameValueTwice(): Option<Tree<int>> {
    match QuadTrees.Insert(NewTree<int>(50, World), 0, Small, 1)
    case None => None
    case Some(t1) => QuadTrees.Insert(t1, 0, Inner, 1)
  }

  lemma SameValueTwiceShape()
    ensures SameValueTwice().Some?
    ensures SameValueTwice().value.root == Branch(World, NoKids(), [Leaf(0, Small), Leaf(0, Small)], false)
  {
    var t0 := NewTree<int>(50, World);
    var a := Leaf(0, Small);
    assert t0.root.leaves + [a] == [a];
    var t1 := QuadTrees.Insert(t0, 0, Small, 1).value;
    assert t1.root == Branch(World, NoKids(), [a], false);
  }

  /**
    Clearing that tree as written, with an empty pool, pushes the one shell of
    value 0 twice, so the next two leaf creations both take that shell; the
    corrected clearing pushes it once and the second creation gets a new shell.
  */
  lemma ClearAsWrittenSharesShell()
    ensures SameValueTwice().Some?
    ensures var t := SameValueTwice().value;
            var pool := ClearPoolAsWritten([], t);
            Acquire(pool).0 == Some(0) && Acquire(Acquire(pool).1).0 == Some(0)
    ensures var t := SameValueTwice().value;
            var pool := ClearPool([], t);
            Acquire(pool).0 == Some(0) && Acquire(Acquire(pool).1).0 == None
  {
    SameValueTwicePushes();
    DedupTwoCopies();
  }

  /** Clearing that tree pushes the shell of value 0 once per stored copy. */
  lemma SameValueTwicePushes()
    ensures SameValueTwice().Some? && Pushed(SameValueTwice().value.root) == [0, 0]
  {
    SameValueTwiceShape();
    assert KidsPushed(NoKids<int>()) == [];
  }

  lemma DedupTwoCopies()
    ensures Dedup([0, 0]) == [0]
  {
    assert [0, 0][..1] == [0];
    assert [0][..0] == [];
  }
}

=== FILE: search.dfy ===
/**
  The three traversals: area search, point search, and the collision search
  that walks from a leaf's branch back to the root.
*/
module Searches {
  import opened Options
  import opened Geometry
  import opened Branches
  import opened BranchProperties

  /** What a traversal looks for in each leaf it visits. */
  datatype Probe<T> =
    | Area(quad: Quad)                  // leaves whose quad intersects `quad`
    | Point(x: real, y: real)           // leaves whose quad strictly contains the point
    | AreaExcept(quad: Quad, skip: T)   // leaves other than `skip` whose quad intersects `quad`

  predicate Matches<T(==)>(p: Probe<T>, l: Leaf<T>) {
    match p
    case Area(q) => q.Intersects(l.quad)
    case Point(x, y) => l.quad.ContainsPoint(x, y)
    case AreaExcept(q, skip) => l.value != skip && q.Intersects(l.quad)
  }

  /** The values of the leaves of `ls` that match `p`, in list order. */
  function Select<T(==)>(ls: seq<Leaf<T>>, p: Probe<T>): seq<T> {
    if ls == [] then [] else Keep(p, ls[0]) + Select(ls[1..], p)
  }

  /** The value of `l` when it matches `p`, else nothing. */
  function Keep<T(==)>(p: Probe<T>, l: Leaf<T>): seq<T> {
    if Matches(p, l) then [l.value] else []
  }

  /**
    A search from `n`: test this branch's own leaves, then recurse into every
    existing child without testing the child's region. The result is the
    matching leaves of the whole subtree, in the order `AllLeaves` lists them.
  */
  function Search<T(==)>(n: Node<T>, p: Probe<T>): (r: seq<T>)
    decreases n, 1
    ensures r == Select(AllLeaves(n), p)
  {
    match n
    case Nil => []
    case Branch(_, kids, leaves, _) =>
      SelectAppend(leaves, KidsLeaves(kids), p);
      Select(leaves, p) + SearchKids(kids, p)
  }

  function SearchKids<T(==)>(kids: Kids<T>, p: Probe<T>): (r: seq<T>)
    decreases kids, 0
    ensures r == Select(KidsLeaves(kids), p)
  {
    var a, b, c, d := AllLeaves(kids.k0), AllLeaves(kids.k1), AllLeaves(kids.k2), AllLeaves(kids.k3);
    SelectAppend(a, b, p);
    SelectAppend(a + b, c, p);
    SelectAppend(a + b + c, d, p);
    Search(kids.k0, p) + Search(kids.k1, p) + Search(kids.k2, p) + Search(kids.k3, p)
  }

  /** Selecting from a concatenation concatenates the selections. */
  lemma {:induction false} SelectAppend<T>(a: seq<Leaf<T>>, b: seq<Leaf<T>>, p: Probe<T>)
    ensures Select(a + b, p) == Select(a, p) + Select(b, p)
    decreases |a|
  {
    if a == [] {
      assert a + b == b;
    } else {
      assert (a + b)[0] == a[0];
      assert (a + b)[1..] == a[1..] + b;
      SelectAppend(a[1..], b, p);
      assert Select(a + b, p) == Keep(p, a[0]) + (Select(a[1..], p) + Select(b, p));
    }
  }

  /** A value is selected exactly when some leaf carrying it matches. */
  lemma {:induction false} SelectMembership<T>(ls: seq<Leaf<T>>, p: Probe<T>, v: T)
    ensures v in Select(ls, p) <==> exists l :: l in ls && l.value == v && Matches(p, l)
    decreases |ls|
  {
    if ls != [] {
      SelectMembership(ls[1..], p, v);
      if v !in Select(ls, p) {
        forall l | l in ls && l.value == v
          ensures !Matches(p, l)
        {
          if l != ls[0] {
            assert l in ls[1..];
          }
        }
      }
    }
  }

  /** Two probes that agree on every leaf of `ls` select the same values. */
  lemma {:induction false} SelectAgree<T>(ls: seq<Leaf<T>>, p: Probe<T>, p': Probe<T>)
    requires forall l :: l in ls ==> (Matches(p, l) <==> Matches(p', l))
    ensures Select(ls, p) == Select(ls, p')
    decreases |ls|
  {
    if ls != [] {
      SelectAgree(ls[1..], p, p');
    }
  }

  /** A probe that matches no leaf of `ls` selects nothing. */
  lemma {:induction false} SelectNone<T>(ls: seq<Leaf<T>>, p: Probe<T>)
    requires forall l :: l in ls ==> !Matches(p, l)
    ensures Select(ls, p) == []
    decreases |ls|
  {
    if ls != [] {
      SelectNone(ls[1..], p);
    }
  }

  /** Every leaf in the subtree carrying `v` has quad `q`, as one leaf per value guarantees. */
  ghost predicate KeyedBy<T>(ls: seq<Leaf<T>>, v: T, q: Quad) {
    forall l :: l in ls && l.value == v ==> l.quad == q
  }

  /**
    The collision walk for a leaf `(v, q)`: go down the routing path of `q` to
    the branch that holds the leaf; there, take its other leaves that intersect
    `q` and, if it is split, search its children; then, on the way back up,
    take the intersecting leaves each ancestor holds at its own level, nearest
    ancestor first.
  */
  function Collide<T(==)>(n: Node<T>, q: Quad, v: T): seq<T>
    requires n.Branch?
    decreases n
  {
    match Step(n, q)
    case None =>
      Select(n.leaves, AreaExcept(q, v)) + (if n.split then SearchKids(n.kids, Area(q)) else [])
    case Some(i) =>
      Collide(n.kids.Get(i), q, v) + Select(n.leaves, Area(q))
  }

  /** `Select` over a branch's subtree, split into its own leaves and its four children. */
  lemma SelectBranch<T>(n: Node<T>, p: Probe<T>)
    requires n.Branch?
    ensures Select(AllLeaves(n), p) == Select(n.leaves, p) + Select(KidsLeaves(n.kids), p)
  {
    SelectAppend(n.leaves, KidsLeaves(n.kids), p);
  }

  /** When every child but `i` selects nothing, the children select what child `i` selects. */
  lemma OnlyKidSelects<T>(kids: Kids<T>, i: Index, p: Probe<T>)
    requires forall j: Index :: j != i ==> Select(AllLeaves(kids.Get(j)), p) == []
    ensures Select(KidsLeaves(kids), p) == Select(AllLeaves(kids.Get(i)), p)
  {
    var a := Select(AllLeaves(kids.k0), p);
    var b := Select(AllLeaves(kids.k1), p);
    var c := Select(AllLeaves(kids.k2), p);
    var d := Select(AllLeaves(kids.k3), p);
    assert Select(KidsLeaves(kids), p) == a + b + c + d by {
      assert SearchKids(kids, p) == Search(kids.k0, p) + Search(kids.k1, p) + Search(kids.k2, p) + Search(kids.k3, p);
    }
    if i == 0 {
      assert b == [] && c == [] && d == [] by { assert kids.Get(1) == kids.k1 && kids.Get(2) == kids.k2 && kids.Get(3) == kids.k3; }
      assert a + b + c + d == a;
    } else if i == 1 {
      assert a == [] && c == [] && d == [] by { assert kids.Get(0) == kids.k0 && kids.Get(2) == kids.k2 && kids.Get(3) == kids.k3; }
      assert a + b + c + d == b;
    } else if i == 2 {
      assert a == [] && b == [] && d == [] by { assert kids.Get(0) == kids.k0 && kids.Get(1) == kids.k1 && kids.Get(3) == kids.k3; }
      assert a + b + c + d == c;
    } else {
      assert a == [] && b == [] && c == [] by { assert kids.Get(0) == kids.k0 && kids.Get(1) == kids.k1 && kids.Get(2) == kids.k2; }
      assert a + b + c + d == d;
    }
  }

  /** A leaf of one child is a leaf of the branch. */
  lemma InKidLeaves<T>(n: Node<T>, i: Index, l: Leaf<T>)
    requires n.Branch? && l in AllLeaves(n.kids.Get(i))
    ensures l in AllLeaves(n)
  {
    var a, b, c, d := AllLeaves(n.kids.k0), AllLeaves(n.kids.k1), AllLeaves(n.kids.k2), AllLeaves(n.kids.k3);
    assert AllLeaves(n) == n.leaves + (a + b + c + d);
  }

  /** In a valid tree, a leaf below child `j` is one whose quad routes to quarter `j`. */
  lemma KidLeafRouted<T>(n: Node<T>, splitCount: int, j: Index, l: Leaf<T>)
    requires n.Branch? && Valid(n, splitCount) && l in AllLeaves(n.kids.Get(j))
    ensures n.kids.Get(j).Branch? && FirstContaining(n.region, l.quad) == Some(j)
  {
    KidsValidGet(n.region, n.kids, j, splitCount);
  }

  /**
    The collision walk from the top of a valid tree finds exactly the other
    leaves whose quads intersect `q`, each as often as it is stored, provided
    every leaf carrying `v` has quad `q`. Sibling subtrees the walk skips lie
    in quarters that do not intersect the quarter holding `q`, and a branch
    whose children hold `q`'s leaf holds no leaf with quad `q` itself.
  */
  lemma {:induction false} CollideExact<T>(n: Node<T>, splitCount: int, q: Quad, v: T)
    requires n.Branch? && Valid(n, splitCount) && KeyedBy(AllLeaves(n), v, q)
    ensures multiset(Collide(n, q, v)) == multiset(Select(AllLeaves(n), AreaExcept(q, v)))
    decreases n
  {
    var other := AreaExcept(q, v);
    SelectBranch(n, other);
    match Step(n, q)
    case None =>
      if n.split {
        forall l | l in KidsLeaves(n.kids)
          ensures Matches(Area(q), l) <==> Matches(other, l)
        {
          var j := KidsHolding(n.kids, l);
          InKidLeaves(n, j, l);
          KidLeafRouted(n, splitCount, j, l);
        }
        SelectAgree(KidsLeaves(n.kids), Area(q), other);
      } else {
        assert KidsLeaves(n.kids) == [];
      }
    case Some(i) =>
      var kid := n.kids.Get(i);
      KidsValidGet(n.region, n.kids, i, splitCount);
      forall l | l in AllLeaves(kid) && l.value == v
        ensures l.quad == q
      {
        InKidLeaves(n, i, l);
      }
      CollideExact(kid, splitCount, q, v);
      forall l | l in n.leaves
        ensures Matches(Area(q), l) <==> Matches(other, l)
      {
        assert l in AllLeaves(n);
      }
      SelectAgree(n.leaves, Area(q), other);
      forall j: Index | j != i
        ensures Select(AllLeaves(n.kids.Get(j)), other) == []
      {
        forall l | l in AllLeaves(n.kids.Get(j))
          ensures !Matches(other, l)
        {
          KidLeafRouted(n, splitCount, j, l);
          QuartersDisjoint(n.region, i, j);
          SeparatedByContainers(Quarter(n.region, i), q, Quarter(n.region, j), l.quad);
        }
        SelectNone(AllLeaves(n.kids.Get(j)), other);
      }
      OnlyKidSelects(n.kids, i, other);
  }
}

=== FILE: tree.dfy ===
/**
  The tree façade: a root branch, the split threshold, and the table that maps
  each registered value to the quad of its one leaf.
*/
module QuadTrees {
  import opened Options
  import opened Geometry
  import opened Branches
  import opened Searches

  /**
    `lookup` stands for the value-to-leaf dictionary: a leaf is its value and
    quad, so the table keeps the quad each registered value was first given.
  */
  datatype Tree<T> = Tree(splitCount: int, root: Node<T>, lookup: map<T, Quad>)

  /** A query's answer: the success flag and the values collected, in visit order. */
  datatype Found<T> = Found(found: bool, values: seq<T>)

  /** A tree over `region`: one empty, unsplit root branch and an empty table. */
  function NewTree<T>(splitCount: int, region: Quad): Tree<T> {
    Tree(splitCount, NewBranch(region), map[])
  }

  /** The tree's leaves and its table describe the same (value, quad) pairs. */
  ghost predicate Registered<T>(t: Tree<T>) {
    && (forall l :: l in AllLeaves(t.root) ==> l.value in t.lookup && t.lookup[l.value] == l.quad)
    && (forall v :: v in t.lookup ==> Leaf(v, t.lookup[v]) in AllLeaves(t.root))
  }

  ghost predicate TreeValid<T>(t: Tree<T>) {
    && t.splitCount >= 1
    && t.root.Branch?
    && Valid(t.root, t.splitCount)
    && Registered(t)
  }

  /**
    Insert `value` with `quad`. A value already in the table reuses its leaf,
    stored quad included, and that leaf is routed into the tree once more.
  */
  function Insert<T>(t: Tree<T>, value: T, quad: Quad, fuel: nat): (r: Option<Tree<T>>)
    requires t.root.Branch?
    ensures r.Some? ==> r.value.splitCount == t.splitCount && r.value.root.Branch? && r.value.root.region == t.root.region
    ensures r.Some? ==> r.value.lookup == (if value in t.lookup then t.lookup else t.lookup[value := quad])
    ensures r.Some? ==> multiset(AllLeaves(r.value.root)) == multiset(AllLeaves(t.root)) + multiset{Leaf(value, r.value.lookup[value])}
  {
    var leaf := Leaf(value, if value in t.lookup then t.lookup[value] else quad);
    InsertConserves(t.root, leaf, t.splitCount, fuel);
    match Branches.Insert(t.root, leaf, t.splitCount, fuel)
    case None => None
    case Some(root) => Some(Tree(t.splitCount, root, t.lookup[value := leaf.quad]))
  }

  /** The values of the leaves whose quads intersect `quad`; the flag says whether there are any. */
  function SearchArea<T>(t: Tree<T>, quad: Quad): (r: Found<T>)
    ensures r.values == Select(AllLeaves(t.root), Area(quad))
    ensures r.found <==> |r.values| > 0
  {
    var values := Search(t.root, Area(quad));
    Found(|values| > 0, values)
  }

  /** The values of the leaves whose quads strictly contain the point. */
  function SearchPoint<T>(t: Tree<T>, x: real, y: real): (r: Found<T>)
    ensures r.values == Select(AllLeaves(t.root), Point(x, y))
    ensures r.found <==> |r.values| > 0
  {
    var values := Search(t.root, Point(x, y));
    Found(|values| > 0, values)
  }

  /** The values `FindCollisions` collects for `value`: nothing when it is not registered. */
  function Collisions<T>(t: Tree<T>, value: T): seq<T>
    requires t.root.Branch?
  {
    if value in t.lookup then Collide(t.root, t.lookup[value], value) else []
  }

  /** The collision query as the source writes it: whatever it collects, it reports failure. */
  function FindCollisionsAsWritten<T>(t: Tree<T>, value: T): (r: Found<T>)
    requires t.root.Branch?
    ensures !r.found
    ensures value !in t.lookup ==> r.values == []
  {
    Found(false, Collisions(t, value))
  }

  /** The collision query with the flag its documentation promises: true when something collides. */
  function FindCollisions<T>(t: Tree<T>, value: T): (r: Found<T>)
    requires t.root.Branch?
    ensures r.values == FindCollisionsAsWritten(t, value).values
    ensures r.found <==> |r.values| > 0
    ensures value !in t.lookup ==> r == Found(false, [])
  {
    var values := Collisions(t, value);
    Found(|values| > 0, values)
  }

  /** The number of branches reachable from the root through split branches. */
  function CountBranches<T>(t: Tree<T>): (r: nat)
    requires t.root.Branch?
    ensures r >= 1
  {
    Branches.CountBranches(t.root)
  }

  /** Drop every branch and leaf and empty the table, keeping the root's region and the threshold. */
  function Clear<T>(t: Tree<T>): (r: Tree<T>)
    requires t.root.Branch?
    ensures r == NewTree(t.splitCount, t.root.region)
  {
    Tree(t.splitCount, NewBranch(t.root.region), map[])
  }
}

=== FILE: tree_properties.dfy ===
/** What the tree's public operations promise, stated over the value-to-quad table. */
module QuadTreeProperties {
  import opened Geometry
  import opened Branches
  import opened BranchProperties
  import opened Searches
  import opened QuadTrees

  /** A fresh tree is valid, has only its root, and every query on it comes back empty. */
  lemma NewTreeEmpty<T>(splitCount: int, region: Quad)
    requires splitCount >= 1
    ensures TreeValid(NewTree<T>(splitCount, region))
    ensures QuadTrees.CountBranches(NewTree<T>(splitCount, region)) == 1
    ensures forall q :: SearchArea(NewTree<T>(splitCount, region), q) == Found(false, [])
    ensures forall x, y :: SearchPoint(NewTree<T>(splitCount, region), x, y) == Found(false, [])
    ensures forall v :: FindCollisions(NewTree<T>(splitCount, region), v) == Found(false, [])
  {
    CreateBranchFresh<T>(region, splitCount);
  }

  /** After `Clear` the tree is as if just created over the same region. */
  lemma ClearResets<T>(t: Tree<T>)
    requires t.root.Branch? && t.splitCount >= 1
    ensures TreeValid(Clear(t)) && Clear(t).lookup == map[]
    ensures QuadTrees.CountBranches(Clear(t)) == 1
    ensures forall q :: SearchArea(Clear(t), q) == Found(false, [])
    ensures forall x, y :: SearchPoint(Clear(t), x, y) == Found(false, [])
    ensures forall v :: FindCollisions(Clear(t), v) == Found(false, [])
  {
    NewTreeEmpty<T>(t.splitCount, t.root.region);
  }

  /** Inserting keeps the tree valid and its table in step with its leaves. */
  lemma InsertKeepsValid<T>(t: Tree<T>, value: T, quad: Quad, fuel: nat)
    requires TreeValid(t)
    ensures QuadTrees.Insert(t, value, quad, fuel).Some? ==> TreeValid(QuadTrees.Insert(t, value, quad, fuel).value)
  {
    if QuadTrees.Insert(t, value, quad, fuel).Some? {
      var r := QuadTrees.Insert(t, value, quad, fuel).value;
      InsertValid(t.root, Leaf(value, r.lookup[value]), t.splitCount, fuel);
      RegisteredAfterAdd(t, r, value);
    }
  }

  /** Adding one stored copy of `value`'s leaf, and registering it if new, keeps table and leaves in step. */
  lemma RegisteredAfterAdd<T>(t: Tree<T>, r: Tree<T>, value: T)
    requires Registered(t)
    requires value in r.lookup
    requires r.lookup == (if value in t.lookup then t.lookup else t.lookup[value := r.lookup[value]])
    requires multiset(AllLeaves(r.root)) == multiset(AllLeaves(t.root)) + multiset{Leaf(value, r.lookup[value])}
    ensures Registered(r)
  {
    var leaf := Leaf(value, r.lookup[value]);
    forall l | l in AllLeaves(r.root)
      ensures l.value in r.lookup && r.lookup[l.value] == l.quad
    {
      assert l in multiset(AllLeaves(r.root));
      if l != leaf {
        assert l in multiset(AllLeaves(t.root));
      }
    }
    forall w | w in r.lookup
      ensures Leaf(w, r.lookup[w]) in AllLeaves(r.root)
    {
      if w in t.lookup {
        assert Leaf(w, t.lookup[w]) in multiset(AllLeaves(t.root));
      }
      assert Leaf(w, r.lookup[w]) in multiset(AllLeaves(r.root));
    }
  }

  /** On a registered tree, a value is selected exactly when its registered leaf matches. */
  lemma SelectByTable<T>(t: Tree<T>, p: Probe<T>, v: T)
    requires Registered(t)
    ensures v in Select(AllLeaves(t.root), p) <==> v in t.lookup && Matches(p, Leaf(v, t.lookup[v]))
  {
    SelectMembership(AllLeaves(t.root), p, v);
    if v in t.lookup {
      assert Leaf(v, t.lookup[v]) in AllLeaves(t.root);
    }
  }

  /**
    Any list with the same elements as a registered tree's selection holds a
    value exactly when its registered leaf matches, and is non-empty exactly
    when some registered leaf matches.
  */
  lemma ExactByTable<T>(t: Tree<T>, p: Probe<T>, values: seq<T>)
    requires Registered(t) && multiset(values) == multiset(Select(AllLeaves(t.root), p))
    ensures forall v :: v in values <==> v in t.lookup && Matches(p, Leaf(v, t.lookup[v]))
    ensures |values| > 0 <==> exists v :: v in t.lookup && Matches(p, Leaf(v, t.lookup[v]))
  {
    forall v
      ensures v in values <==> v in t.lookup && Matches(p, Leaf(v, t.lookup[v]))
    {
      assert v in values <==> v in multiset(values);
      SelectByTable(t, p, v);
    }
    if |values| > 0 {
      assert values[0] in values;
    }
  }

  /** A value is reported by an area search exactly when it is registered with a quad the query intersects. */
  lemma SearchAreaExact<T>(t: Tree<T>, quad: Quad)
    requires TreeValid(t)
    ensures forall v :: v in SearchArea(t, quad).values <==> v in t.lookup && quad.Intersects(t.lookup[v])
    ensures SearchArea(t, quad).found <==> exists v :: v in t.lookup && quad.Intersects(t.lookup[v])
  {
    ExactByTable(t, Area(quad), SearchArea(t, quad).values);
  }

  /** A value is reported by a point search exactly when it is registered with a quad strictly containing the point. */
  lemma SearchPointExact<T>(t: Tree<T>, x: real, y: real)
    requires TreeValid(t)
    ensures forall v :: v in SearchPoint(t, x, y).values <==> v in t.lookup && t.lookup[v].ContainsPoint(x, y)
    ensures SearchPoint(t, x, y).found <==> exists v :: v in t.lookup && t.lookup[v].ContainsPoint(x, y)
  {
    ExactByTable(t, Point(x, y), SearchPoint(t, x, y).values);
  }

  /**
    On a valid tree the collision query for a registered value reports exactly
    the other registered values whose quads intersect its quad, each as often
    as its leaf is stored, and never the value itself.
  */
  lemma CollisionsExact<T>(t: Tree<T>, value: T)
    requires TreeValid(t) && value in t.lookup
    ensures multiset(FindCollisions(t, value).values) == multiset(Select(AllLeaves(t.root), AreaExcept(t.lookup[value], value)))
    ensures forall w :: w in FindCollisions(t, value).values <==>
              w != value && w in t.lookup && t.lookup[value].Intersects(t.lookup[w])
    ensures FindCollisions(t, value).found <==>
              exists w :: w != value && w in t.lookup && t.lookup[value].Intersects(t.lookup[w])
  {
    CollideExact(t.root, t.splitCount, t.lookup[value], value);
    ExactByTable(t, AreaExcept(t.lookup[value], value), FindCollisions(t, value).values);
  }

  /** Right after an insertion, an area search that meets the value's stored quad reports the value. */
  lemma InsertedValueFound<T>(t: Tree<T>, value: T, quad: Quad, fuel: nat, query: Quad)
    requires t.root.Branch? && QuadTrees.Insert(t, value, quad, fuel).Some?
    requires query.Intersects(QuadTrees.Insert(t, value, quad, fuel).value.lookup[value])
    ensures value in SearchArea(QuadTrees.Insert(t, value, quad, fuel).value, query).values
  {
    var r := QuadTrees.Insert(t, value, quad, fuel).value;
    var leaf := Leaf(value, r.lookup[value]);
    assert leaf in multiset(AllLeaves(r.root));
    SelectMembership(AllLeaves(r.root), Area(query), value);
  }

  /** Inserting a registered value again neither moves it nor changes the table, whatever quad is passed. */
  lemma ReinsertKeepsQuad<T>(t: Tree<T>, value: T, quad: Quad, fuel: nat)
    requires t.root.Branch? && value in t.lookup && QuadTrees.Insert(t, value, quad, fuel).Some?
    ensures QuadTrees.Insert(t, value, quad, fuel).value.lookup == t.lookup
    ensures multiset(AllLeaves(QuadTrees.Insert(t, value, quad, fuel).value.root)) == multiset(AllLeaves(t.root)) + multiset{Leaf(value, t.lookup[value])}
  {
  }

  /** Insertion never removes a branch. */
  lemma InsertKeepsBranchCount<T>(t: Tree<T>, value: T, quad: Quad, fuel: nat)
    requires t.root.Branch? && QuadTrees.Insert(t, value, quad, fuel).Some?
    ensures QuadTrees.CountBranches(QuadTrees.Insert(t, value, quad, fuel).value) >= QuadTrees.CountBranches(t)
  {
    var leaf := Leaf(value, if value in t.lookup then t.lookup[value] else quad);
    InsertKeepsBranches(t.root, leaf, t.splitCount, fuel);
  }

  /** On a valid tree the count is the number of branches the tree holds, split or not. */
  lemma CountBranchesExact<T>(t: Tree<T>)
    requires TreeValid(t)
    ensures QuadTrees.CountBranches(t) == CountNodes(t.root)
  {
    CountBranchesCountsEvery(t.root, t.splitCount);
  }
}
